=== FILE: README.md ===
# LIDAR-Lite v2 driver, modelled in Dafny

This project models the Go driver for the LIDAR-Lite v2 laser range finder
(`rpi/lidar/lidar.go`) and proves properties of the model. The driver talks to
the sensor over I2C. It decodes the status register, retries register reads
and writes behind status polls, and runs the acquisition protocols:
single-shot distance, velocity, and continuous mode. It also resets the
device when it is opened and when it is closed.

The I2C transport is abstracted as a finite stream of replies (`Bus`). Every
transaction the driver issues consumes the next reply: a status poll, a byte
read, a byte write, a word read, or closing the bus. A reply is `Ok(data)` or
`Err(error)`, and an exhausted stream answers `Err(NoReply)`. Every operation
returns a `Run`, which holds:

- its result;
- the trace of transactions it issued, each paired with its reply;
- the replies left over.

Go's `(value, error)` pairs become `Reading(value, err)`, where
`err == None` is a nil error. The driver's error strings become the `Error`
datatype:

- `ReadLimit` is "Read limit occurs";
- `WriteLimit` is "Write limit occurs";
- `CountingError` and `NoAutomaticLimiting` are the continuous-mode errors;
- `Transport` is a bus error passed through.

Modules, one per part of the driver:

- `Status` (status.dfy): the eight flags of the status register.
- `Bus` (bus.dfy): the transport, traces, status-poll counting, which
  operations a trace touches and in what order, and `Effects`. `Effects` keeps the transactions of a trace that took effect: every
  write, word read, bus close and successful byte read. It drops status polls
  and the failed byte reads that `Read` retries.
- `Retry` (retry.dfy): the device handle, `GetStatus`, `Read`,
  `WriteByteToRegister`, and the raw (unpolled) write.
- `Protocol` (protocol.dfy): what a run of a fixed multi-step protocol looks
  like. `Ran(e, steps)` says the effects `e` are the protocol's first steps,
  in order, each successful except possibly the last. `Outcome` adds two
  facts:
  - the run completed exactly when no error was returned;
  - otherwise the error is that of the step it stopped at.

  `StoppedAt` says what a failed run's trace holds. Before the split point,
  it holds status polls and the operations of the steps that went through,
  and nothing else. After it come only the failing step's own attempts.
  `InStepOrder` says a run issues the steps strictly in order: at every
  point of the trace, apart from status polls, only the operations of the
  steps that took effect so far and of the step in progress appear.
- `Acquisition` (acquisition.dfy): `Distance`, `Velocity`, `BeginContinuous`
  and `DistanceContinuous`.
- `Lifecycle` (lifecycle.dfy): `NewLidar` and `Close`.
- `Properties` (properties.dfy): properties that relate several operations,
  and worked examples.

### Behaviour worth noting

- `Read` tests the status bits in the order Health, then ErrorDetection,
  then SignalOverflow, and `DistanceContinuous` does the same. With bad
  health the error-detection bit is therefore never looked at, and the
  register is read anyway (`Properties.ErrorBitIgnoredWhenUnhealthy`).
- `Read` does not look at `NotReady`: a status reporting the device busy
  does not hold a read back (`Properties.ReadIgnoresNotReady`).
- `Velocity` writes its trigger (0x04 to register 0x00) straight to the bus,
  without a status poll. `BeginContinuous` uses only such raw writes.
- `Velocity` returns `int(val)` of an unsigned byte, so its result lies in
  0..255.
- The distance is computed as `(high << 8) + low`. This equals the bitwise
  composition `(high << 8) | low` (`Properties.CombineIsBitwise`).
- The two retry loops give up with distinct errors: `ReadLimit` ("Read limit
  occurs") and `WriteLimit` ("Write limit occurs").

## Model

| member | source | states |
|---|---|---|
| `Status.Position` | rpi/lidar/lidar.go:24-53 | the `iota` of each flag indexes that flag in declaration order |
| `Status.MasksArePowersOfTwo` | rpi/lidar/lidar.go:24-53 | `Mask`, the mask `1 << iota` the driver tests a flag with, is 1 shifted by the flag's position: the mask of the i-th declared flag is `1 << i`. The masks strictly increase from NotReady (1) to EyeSafe (128), so they are distinct, and each is a single bit |
| `Status.TestReadsOwnBit` | rpi/lidar/lidar.go:24-53 | `st & Flag != 0` holds exactly when bit Position(flag) of the status byte is 1 |
| `Status.TestIgnoresOtherBits` | rpi/lidar/lidar.go:24-53 | flipping the bit of any other flag never changes a flag's test |
| `Status.EncodeDecode` | rpi/lidar/lidar.go:24-53 | decoding a status byte into its set of flags and encoding it back gives the same byte |
| `Status.DecodeEncode` | rpi/lidar/lidar.go:24-53 | encoding a set of flags and decoding it back gives the same set |
| `Retry.GetStatus` | rpi/lidar/lidar.go:139-148 | one poll of the status register; a failed poll returns `(0, err)` with the transport's error, otherwise the byte read and no error |
| `Retry.ClassifyByFlags` | rpi/lidar/lidar.go:78-96 | `Classify`, the branch the status switch takes, in terms of the flags the byte raises. Bad health exactly when Health is not raised, whatever else is. An error exactly when Health and ErrorDetection are both raised. No automatic limiting exactly when Health is raised and ErrorDetection and SignalOverflow are not. Nominal otherwise |
| `Retry.RawWrite` | rpi/lidar/lidar.go:204 | a direct bus write is exactly one transaction with no status poll, and returns the transport's own result |
| `Retry.ReadAttempts` | rpi/lidar/lidar.go:75-101 | the retry loop with `left` attempts remaining polls at most `left` times. It either delivers the byte of its final read, with the trace in the ReadDelivered shape, or returns ReadLimit with value 0 after exactly `left` polls, every attempt having failed (the FailedReads shape) |
| `Retry.Read` | rpi/lidar/lidar.go:75-101 | at most 50 status polls; only the status register and `reg` are touched; on success the one effect is the successful read of `reg`, which ends the trace, and the value is its byte; otherwise ReadLimit after exactly 50 polls, with no effect |
| `Retry.ReadWaitsForGate` | rpi/lidar/lidar.go:75-101 | Read's trace is attempts that failed (a poll that held the read back, or a passing poll followed by a failed read), then, unless it gave up, a passing poll directly followed by the successful read, which ends the trace |
| `Retry.WriteAttempts` | rpi/lidar/lidar.go:109-124 | the write loop with `left` attempts either gives up with WriteLimit after `left` polls that all held it back, or writes once after the first ready status and returns that write's result |
| `Retry.WriteByteToRegister` | rpi/lidar/lidar.go:109-124 | at most 50 polls; on WriteLimit exactly 50 polls and no effect; otherwise exactly one effect, the write of `value` to `reg`, which is the last transaction and whose reply is returned without retry |
| `Retry.WriteWaitsForReady` | rpi/lidar/lidar.go:109-124 | the write loop's trace is polls that failed or reported NotReady; unless the loop gave up, these are followed by one ready poll and then the write |
| `Acquisition.Combine` | rpi/lidar/lidar.go:186 | the combined distance is a 16-bit value whose quotient by 256 is the high byte and whose remainder is the low byte |
| `Acquisition.Distance` | rpi/lidar/lidar.go:154-188 | a successful distance lies in 0..65535; every failure returns -1 |
| `Acquisition.DistanceProtocol` | rpi/lidar/lidar.go:154-188 | the steps' effects come in order: write 0x04 or 0x03 to 0x00, then read 0x10, then read 0x0f. It stops at the first step that fails. No error is returned exactly when all three steps succeeded; otherwise the error is that of the failing step |
| `Acquisition.DistanceInStepOrder` | rpi/lidar/lidar.go:158-184 | Distance issues each step only after the previous one has returned: at every point of the trace, apart from status polls, only the operations of the steps that took effect so far and of the step in progress appear. No attempt at reading 0x10 comes before the trigger write, and none at 0x0f before 0x10 was read |
| `Acquisition.DistanceStopsAtFailure` | rpi/lidar/lidar.go:158-184 | a Distance that fails stops at the failing step. Up to a split point, the trace holds, apart from status polls, only the operations of the steps that went through, and it ends with their last effect. After it come only the failing step's own attempts: 50 polls that kept the trigger write back, or 50 failed attempts at the register read, or, for a transport error, nothing, because the failed write ends the trace. So no later step's operation appears anywhere in the trace |
| `Acquisition.DistanceTouchesOnlyItsSteps` | rpi/lidar/lidar.go:154-188 | apart from status polls, Distance issues only the operations of its three steps |
| `Acquisition.DistanceCombinesBytes` | rpi/lidar/lidar.go:175-186 | a successful Distance returns 256 * high + low, where low is the byte of its second effect (register 0x10) and high that of its third (register 0x0f) |
| `Acquisition.Velocity` | rpi/lidar/lidar.go:194-218 | a successful velocity lies in 0..255 (unsigned); every failure returns -1 |
| `Acquisition.VelocityProtocol` | rpi/lidar/lidar.go:194-218 | the steps' effects come in order: write 0xa0 to 0x04, then write 0x04 to 0x00, then read 0x09. It stops at the first step that fails, with that step's error |
| `Acquisition.VelocityInStepOrder` | rpi/lidar/lidar.go:198-214 | Velocity issues each step only after the previous one has returned, in the same sense: the trigger only after the mode write, and no attempt at reading 0x09 before the trigger write |
| `Acquisition.VelocityTouchesOnlyItsSteps` | rpi/lidar/lidar.go:194-218 | apart from status polls, Velocity issues only the operations of its three steps |
| `Acquisition.VelocityStopsAtFailure` | rpi/lidar/lidar.go:198-214 | a Velocity that fails stops at the failing step in the same sense. Before the split point only polls and the operations of the steps that went through appear. A mode write given up on leaves 50 busy polls. A mode or trigger write that fails on the transport ends the trace. A read of 0x09 given up on leaves only its 50 failed attempts after the trigger write |
| `Acquisition.VelocityReturnsByte` | rpi/lidar/lidar.go:211-216 | a successful Velocity returns the byte its third step read, as an unsigned number |
| `Acquisition.VelocityTriggersAtOnce` | rpi/lidar/lidar.go:198-207 | the trigger write comes directly after the mode write, with no status poll between them |
| `Acquisition.RawWrites` | rpi/lidar/lidar.go:227-263 | raw writes of a list of (register, value) pairs issue a prefix of the list in order; every write but the last succeeded; the result is the last write's error, which is nil only when all were written |
| `Acquisition.BeginContinuous` | rpi/lidar/lidar.go:227-263 | writes (0x45, interval), (0x04, 0x21 or 0x20 by modePinLow), (0x11, count) and (0x00, 0x04) in that order, without polls. It stops at and returns the first write error, and returns nil exactly when all four writes succeeded |
| `Acquisition.ReadContinuousWord` | rpi/lidar/lidar.go:275-281 | one word read of register 0x8f, with no retry; returns the 16-bit value read, or -1 with the transport's error |
| `Acquisition.DistanceContinuous` | rpi/lidar/lidar.go:267-294 | exactly one status poll, then at most one word read of 0x8f, made exactly when health is bad or the status is nominal. CountingError is returned exactly when health is good and an error is detected. NoAutomaticLimiting is returned exactly when health is good, no error is detected and SignalOverflow is clear. A failed poll or word read returns its own error |
| `Lifecycle.NewLidar` | rpi/lidar/lidar.go:63-71 | one unpolled write of 0x00 to register 0x00; the handle on the given bus and address is returned exactly when that write succeeds, otherwise a panic carrying the write's error |
| `Lifecycle.Close` | rpi/lidar/lidar.go:127-136 | a write of 0x00 to register 0x00, then closing the bus, always both |
| `Lifecycle.CloseIgnoresResetFailure` | rpi/lidar/lidar.go:127-136 | whatever the reset write answers, Close goes on to close the bus in the same way |
| `Lifecycle.CloseTwice` | rpi/lidar/lidar.go:127-136 | closing twice attempts the reset write and the bus close both times |
| `Properties.ReadsRegisterExactly` | rpi/lidar/lidar.go:81-95 | Read reads the register after a status exactly when health is bad, or when no error is detected and SignalOverflow is set |
| `Properties.ErrorBitIgnoredWhenUnhealthy` | rpi/lidar/lidar.go:81-87 | with bad health, flipping the error-detection bit does not change the branch taken |
| `Properties.ReadIgnoresNotReady` | rpi/lidar/lidar.go:81-95 | flipping NotReady never changes whether Read reads the register |
| `Properties.ContinuousIgnoresErrorBitWhenUnhealthy` | rpi/lidar/lidar.go:274-283 | with bad health, DistanceContinuous returns the same result and issues the same word read whether or not the error bit is set |
| `Properties.ContinuousReadsWhenUnhealthy` | rpi/lidar/lidar.go:274-281 | with bad health and a word read that succeeds, DistanceContinuous returns the value read and no error |
| `Properties.FailedReadsLayout` | rpi/lidar/lidar.go:75-101 | in a run of failed read attempts, every read of the register directly follows a passing poll, every passing poll is directly followed by a read, and every read failed |
| `Properties.ReadDeliveredLayout` | rpi/lidar/lidar.go:75-101 | in a delivering run the same holds, except that the last read, which ends the trace, succeeded |
| `Properties.ReadReadsOnlyWhenGated` | rpi/lidar/lidar.go:75-101 | Read reads the register only directly after a status that lets the read through, and after every such status. All reads but the last failed, and the value is that of the last read, so Read returns the first read that succeeds |
| `Properties.ReadGivesUpWithoutGate` | rpi/lidar/lidar.go:75-101 | against statuses none of which lets the read through, for example every poll failing, Read polls 50 times, issues nothing but polls, and returns ReadLimit |
| `Properties.ReadGivesUpOnErrorStatus` | rpi/lidar/lidar.go:76-100 | against statuses that all report good health with ErrorDetection set, Read polls 50 times, issues nothing but polls, and returns ReadLimit |
| `Properties.ReadAtOnce` | rpi/lidar/lidar.go:75-95 | with a passing status and a read that succeeds, Read is exactly one poll and one read, and returns the byte read |
| `Properties.WroteWhenReadyLayout` | rpi/lidar/lidar.go:109-124 | a write loop that wrote is polls that held the write back, then one ready poll, then the write |
| `Properties.WriteOnlyWhenReady` | rpi/lidar/lidar.go:109-124 | WriteByteToRegister writes only as its last transaction, directly after a status reporting the device ready. It never writes after a failed poll or a NotReady status, and writes after the first ready status. It returns WriteLimit exactly when it wrote nothing |
| `Properties.WriteAtOnce` | rpi/lidar/lidar.go:109-124 | with a ready status, WriteByteToRegister is exactly one poll and one write, and returns the write's result |
| `Properties.WriteOnThirdAttempt` | rpi/lidar/lidar.go:109-124 | against statuses NotReady, NotReady, ready, the write is issued once, on the third attempt, and succeeds |
| `Properties.CombineIsBitwise` | rpi/lidar/lidar.go:186 | `(high << 8) + low` equals the bitwise 16-bit composition of the two bytes |
| `Properties.CombineSplits` | rpi/lidar/lidar.go:186 | every 16-bit value is the combination of its own high and low byte |
| `Properties.CombineInjective` | rpi/lidar/lidar.go:186 | different byte pairs combine to different distances |
| `Properties.DistanceExample` | rpi/lidar/lidar.go:154-188 | with nominal statuses, low byte 0x10 and high byte 0x01, Distance returns 272 and no error |
| `Properties.EarlyReadOutOfOrder` | rpi/lidar/lidar.go:158-184 | a trace that attempts the read of 0x0f before the trigger write is out of Distance's step order, even when that read fails and leaves no effect |

## Left out

- The settle delays and the one-second pause between attempts (`time.Sleep`) are left out. They have no functional effect.
- Log output (`log.Println`, `log.Printf`) is left out. It does not influence results.
- `log.Panic` in NewLidar is modelled as the `Panic(cause)` result, not as process termination.
- The `embd` I2C library is replaced by the reply stream. This loses one detail: the handle keeps the bus number, not a live bus object.
- The reply stream is finite, and running off its end answers `NoReply`. This stands for a transport that keeps failing.
- A status poll is a byte read of register 0x01 on the wire. It is recorded as `Poll(addr)` so that polls can be counted separately from register reads.
- `Close` returns nothing, as in the Go driver. The errors of its two steps are only logged there, so they appear only in the trace.
- `rpc/server.go` (the gRPC server and its authentication glue) is not part of this model. `main.go` is not part of this model either: it is a demo script built on a different lidar package.
- Concurrent use of one device handle is not modelled. The driver is sequential and does no locking.
- `Acquisition.DistanceProtocol` states the order and stopping point of the steps' effects only. The order of every transaction, failed reads included, is stated by `Acquisition.DistanceInStepOrder`, and what the trace holds after a failed step by `Acquisition.DistanceStopsAtFailure`.
- `Acquisition.VelocityProtocol` states the order and stopping point of the steps' effects only. The order of every transaction is stated by `Acquisition.VelocityInStepOrder`, and what the trace holds after a failed step by `Acquisition.VelocityStopsAtFailure`.

=== FILE: acquisition.dfy ===
/**
 * The acquisition protocols of the LIDAR-Lite v2 driver: single-shot
 * Distance, Velocity, BeginContinuous and DistanceContinuous. Each is a fixed
 * sequence of register writes followed by reads, stopping at the first step
 * that fails. The settle delays between steps have no functional effect and
 * are not modelled.
 */
module Acquisition {
  import opened Wrappers
  import opened Status
  import opened Bus
  import opened Retry
  import opened Protocol

  // ---------------------------------------------------------------------
  // Single-shot distance

  /** The distance in centimetres from its high and low bytes, as the driver
      computes it: `(int(high) << 8) + int(low)`. */
  function Combine(high: bv8, low: bv8): (d: int)
    ensures 0 <= d < 0x1_0000
    ensures d / 256 == high as int && d % 256 == low as int
  {
    (high as int) * 256 + low as int
  }

  /** The control value that starts an acquisition: 0x04 with DC
      stabilisation of the preamplifier, 0x03 without. */
  function AcquireCommand(stablizePreamp: bool): bv8
  {
    if stablizePreamp then 0x04 else 0x03
  }

  /** The single-shot protocol: trigger, then read the low byte, then the
      high byte. */
  function DistanceSteps(addr: bv8, stablizePreamp: bool): seq<Op>
  {
    [WriteByte(addr, ControlRegister, AcquireCommand(stablizePreamp)),
     ReadByte(addr, DistanceLowRegister),
     ReadByte(addr, DistanceHighRegister)]
  }

  /** Take one distance measurement. Returns -1 with the error of the first
      step that fails. */
  function Distance(l: Lidar, stablizePreamp: bool, bus: seq<Reply>): (r: Run<Reading<int>>)
    ensures Answered(bus, r)
    ensures r.out.err.None? ==> 0 <= r.out.value < 0x1_0000
    ensures r.out.err.Some? ==> r.out.value == -1
  {
    var w := WriteByteToRegister(l, ControlRegister, AcquireCommand(stablizePreamp), bus);
    if w.out.Some? then Run(Reading(-1, w.out), w.trace, w.rest)
    else
      var lo := Read(l, DistanceLowRegister, w.rest);
      AnsweredThen(bus, w, lo);
      if lo.out.err.Some? then Run(Reading(-1, lo.out.err), w.trace + lo.trace, lo.rest)
      else
        var hi := Read(l, DistanceHighRegister, lo.rest);
        AnsweredThen(bus, Then(w.trace, lo), hi);
        var t := w.trace + lo.trace + hi.trace;
        if hi.out.err.Some? then Run(Reading(-1, hi.out.err), t, hi.rest)
        else Run(Reading(Combine(hi.out.value, lo.out.value), None), t, hi.rest)
  }

  /** Distance writes the trigger, then reads the low byte, then the high
      byte, stops at the first failure with that step's error, and on success
      returns 256 * high + low from the bytes it read. */
  lemma DistanceProtocol(l: Lidar, stablizePreamp: bool, bus: seq<Reply>)
    ensures var r := Distance(l, stablizePreamp, bus);
            Outcome(r.trace, DistanceSteps(l.address, stablizePreamp), r.out.err)
  {
    var w, lo, hi := DistanceRuns(l, stablizePreamp, bus);
    if w.out.Some? {
      DistanceStopsAtTrigger(l, stablizePreamp, bus);
    } else {
      DistanceAfterTrigger(l, stablizePreamp, bus);
    }
  }

  /** Distance when the trigger write was given up on or failed. */
  lemma DistanceStopsAtTrigger(l: Lidar, stablizePreamp: bool, bus: seq<Reply>)
    requires WriteByteToRegister(l, ControlRegister, AcquireCommand(stablizePreamp), bus).out.Some?
    ensures var r := Distance(l, stablizePreamp, bus);
            Outcome(r.trace, DistanceSteps(l.address, stablizePreamp), r.out.err)
  {
    var steps := DistanceSteps(l.address, stablizePreamp);
    var r := Distance(l, stablizePreamp, bus);
    var w, lo, hi := DistanceRuns(l, stablizePreamp, bus);
    Start(steps);
    WriteStep([], r.trace, r.out.err, l, ControlRegister, AcquireCommand(stablizePreamp), bus, steps, 0);
    SteppedOutcome(r.trace, steps, 0, r.out.err);
  }

  /** Distance when the trigger write went through. */
  lemma DistanceAfterTrigger(l: Lidar, stablizePreamp: bool, bus: seq<Reply>)
    requires WriteByteToRegister(l, ControlRegister, AcquireCommand(stablizePreamp), bus).out.None?
    ensures var r := Distance(l, stablizePreamp, bus);
            Outcome(r.trace, DistanceSteps(l.address, stablizePreamp), r.out.err)
  {
    var steps := DistanceSteps(l.address, stablizePreamp);
    var w := WriteByteToRegister(l, ControlRegister, AcquireCommand(stablizePreamp), bus);
    var lo := Read(l, DistanceLowRegister, w.rest);
    Start(steps);
    WriteStep([], w.trace, w.out, l, ControlRegister, AcquireCommand(stablizePreamp), bus, steps, 0);
    if lo.out.err.Some? {
      DistanceStopsAtLow(l, stablizePreamp, bus, w, lo);
    } else {
      DistanceAfterLow(l, stablizePreamp, bus, w, lo);
    }
  }

  /** Distance when the read of the low byte was given up on. */
  lemma DistanceStopsAtLow(l: Lidar, stablizePreamp: bool, bus: seq<Reply>,
                           w: Run<Option<Error>>, lo: Run<Reading<bv8>>)
    requires w == WriteByteToRegister(l, ControlRegister, AcquireCommand(stablizePreamp), bus)
    requires Done(Effects(w.trace), DistanceSteps(l.address, stablizePreamp), 1)
    requires w.out.None? && lo == Read(l, DistanceLowRegister, w.rest) && lo.out.err.Some?
    ensures var r := Distance(l, stablizePreamp, bus);
            Outcome(r.trace, DistanceSteps(l.address, stablizePreamp), r.out.err)
  {
    var steps := DistanceSteps(l.address, stablizePreamp);
    var r := Distance(l, stablizePreamp, bus);
    assert r.trace == w.trace + lo.trace && r.out.err == lo.out.err;
    ReadStep(w.trace, r.trace, r.out.err, l, DistanceLowRegister, w.rest, steps, 1);
    SteppedOutcome(r.trace, steps, 1, r.out.err);
  }

  /** Distance when the low byte was read. */
  lemma DistanceAfterLow(l: Lidar, stablizePreamp: bool, bus: seq<Reply>,
                         w: Run<Option<Error>>, lo: Run<Reading<bv8>>)
    requires w == WriteByteToRegister(l, ControlRegister, AcquireCommand(stablizePreamp), bus)
    requires Done(Effects(w.trace), DistanceSteps(l.address, stablizePreamp), 1)
    requires w.out.None? && lo == Read(l, DistanceLowRegister, w.rest) && lo.out.err.None?
    ensures var r := Distance(l, stablizePreamp, bus);
            Outcome(r.trace, DistanceSteps(l.address, stablizePreamp), r.out.err)
  {
    var steps := DistanceSteps(l.address, stablizePreamp);
    var r := Distance(l, stablizePreamp, bus);
    var hi := Read(l, DistanceHighRegister, lo.rest);
    var wl := w.trace + lo.trace;
    assert r.trace == wl + hi.trace && r.out.err == hi.out.err;
    ReadStep(w.trace, wl, lo.out.err, l, DistanceLowRegister, w.rest, steps, 1);
    ReadStep(wl, r.trace, r.out.err, l, DistanceHighRegister, lo.rest, steps, 2);
    SteppedOutcome(r.trace, steps, 2, r.out.err);
  }

  /** Apart from status polls, Distance issues nothing but the operations of
      its three steps. */
  lemma DistanceTouchesOnlyItsSteps(l: Lidar, stablizePreamp: bool, bus: seq<Reply>)
    ensures Touches(Distance(l, stablizePreamp, bus).trace, l.address,
                    DistanceSteps(l.address, stablizePreamp))
  {
    var steps := DistanceSteps(l.address, stablizePreamp);
    var w, lo, hi := DistanceRuns(l, stablizePreamp, bus);
    TouchesStep(w.trace, l.address, steps, 0);
    if w.out.None? {
      TouchesStep(lo.trace, l.address, steps, 1);
      TouchesAppend(w.trace, lo.trace, l.address, steps);
      if lo.out.err.None? {
        TouchesStep(hi.trace, l.address, steps, 2);
        TouchesAppend(w.trace + lo.trace, hi.trace, l.address, steps);
      }
    }
  }

  /** Distance issues its steps strictly in order: nothing of the low-byte
      read comes before the trigger write has gone out, and nothing of the
      high-byte read before the low byte was read. */
  lemma DistanceInStepOrder(l: Lidar, stablizePreamp: bool, bus: seq<Reply>)
    ensures InStepOrder(Distance(l, stablizePreamp, bus).trace, l.address,
                        DistanceSteps(l.address, stablizePreamp))
  {
    var steps := DistanceSteps(l.address, stablizePreamp);
    var w := WriteByteToRegister(l, ControlRegister, AcquireCommand(stablizePreamp), bus);
    WriteTakesEffectAtEnd(l, ControlRegister, AcquireCommand(stablizePreamp), bus);
    assert [] + w.trace == w.trace;
    InStepOrderNext([], w.trace, l.address, steps, 0);
    if w.out.Some? {
      assert Distance(l, stablizePreamp, bus) == Run(Reading(-1, w.out), w.trace, w.rest);
    } else {
      DistanceOrderAfterTrigger(l, stablizePreamp, bus, w);
    }
  }

  /** Distance's reads after the trigger write went out, in step order. */
  lemma DistanceOrderAfterTrigger(l: Lidar, stablizePreamp: bool, bus: seq<Reply>, w: Run<Option<Error>>)
    requires w == WriteByteToRegister(l, ControlRegister, AcquireCommand(stablizePreamp), bus)
    requires w.out.None? && InStepOrder(w.trace, l.address, DistanceSteps(l.address, stablizePreamp))
    ensures InStepOrder(Distance(l, stablizePreamp, bus).trace, l.address,
                        DistanceSteps(l.address, stablizePreamp))
  {
    var steps := DistanceSteps(l.address, stablizePreamp);
    var lo := Read(l, DistanceLowRegister, w.rest);
    var hi := Read(l, DistanceHighRegister, lo.rest);
    var wl := w.trace + lo.trace;
    DistanceTraceAfterTrigger(l, stablizePreamp, bus, w, lo, hi);
    ReadTakesEffectAtEnd(l, DistanceLowRegister, w.rest);
    InStepOrderNext(w.trace, lo.trace, l.address, steps, 1);
    if lo.out.err.None? {
      TriggerAndLowWent(l, stablizePreamp, bus, w, lo);
      ReadTakesEffectAtEnd(l, DistanceHighRegister, lo.rest);
      InStepOrderNext(wl, hi.trace, l.address, steps, 2);
    }
  }

  /** Distance's trace once the trigger write went out: the runs of the
      reads, up to the first one given up on. */
  lemma DistanceTraceAfterTrigger(l: Lidar, stablizePreamp: bool, bus: seq<Reply>, w: Run<Option<Error>>,
                                  lo: Run<Reading<bv8>>, hi: Run<Reading<bv8>>)
    requires w == WriteByteToRegister(l, ControlRegister, AcquireCommand(stablizePreamp), bus) && w.out.None?
    requires lo == Read(l, DistanceLowRegister, w.rest) && hi == Read(l, DistanceHighRegister, lo.rest)
    ensures Distance(l, stablizePreamp, bus).trace ==
              if lo.out.err.Some? then w.trace + lo.trace else w.trace + lo.trace + hi.trace
  {
  }

  /** A successful Distance returns 256 * high + low, where low is the byte
      its second step read and high the byte its third step read. */
  lemma DistanceCombinesBytes(l: Lidar, stablizePreamp: bool, bus: seq<Reply>)
    ensures var r := Distance(l, stablizePreamp, bus);
            var e := Effects(r.trace);
            r.out.err.None? ==>
              && |e| == 3 && e[1].reply.Ok? && e[2].reply.Ok?
              && r.out.value == Combine(LowByte(e[2].reply.data), LowByte(e[1].reply.data))
  {
    var w, lo, hi := DistanceRuns(l, stablizePreamp, bus);
    if w.out.None? && lo.out.err.None? && hi.out.err.None? {
      EffectsOfThree(w.trace, lo.trace, hi.trace);
    }
  }

  /** A Distance that fails stops at the step that failed: after the last
      step that went through, only the failed step's own attempts follow, and
      no later step is started. */
  lemma DistanceStopsAtFailure(l: Lidar, stablizePreamp: bool, bus: seq<Reply>) returns (n: nat)
    ensures var r := Distance(l, stablizePreamp, bus);
            r.out.err.Some? ==>
              StoppedAt(r.trace, n, l.address, DistanceSteps(l.address, stablizePreamp), r.out.err.value)
  {
    var w := WriteByteToRegister(l, ControlRegister, AcquireCommand(stablizePreamp), bus);
    if w.out.Some? {
      n := DistanceFailsAtTrigger(l, stablizePreamp, bus);
    } else {
      n := DistanceFailsAtRead(l, stablizePreamp, bus, w);
    }
  }

  /** Distance when the trigger write was given up on or failed. */
  lemma DistanceFailsAtTrigger(l: Lidar, stablizePreamp: bool, bus: seq<Reply>) returns (n: nat)
    requires WriteByteToRegister(l, ControlRegister, AcquireCommand(stablizePreamp), bus).out.Some?
    ensures var r := Distance(l, stablizePreamp, bus);
            r.out.err.Some? &&
            StoppedAt(r.trace, n, l.address, DistanceSteps(l.address, stablizePreamp), r.out.err.value)
  {
    var steps := DistanceSteps(l.address, stablizePreamp);
    var w := WriteByteToRegister(l, ControlRegister, AcquireCommand(stablizePreamp), bus);
    n := FirstWriteFails(l, ControlRegister, AcquireCommand(stablizePreamp), bus, steps);
    assert Distance(l, stablizePreamp, bus) == Run(Reading(-1, w.out), w.trace, w.rest);
  }

  /** Distance when a read was given up on after the trigger went through. */
  lemma DistanceFailsAtRead(l: Lidar, stablizePreamp: bool, bus: seq<Reply>, w: Run<Option<Error>>)
      returns (n: nat)
    requires w == WriteByteToRegister(l, ControlRegister, AcquireCommand(stablizePreamp), bus)
    requires w.out.None?
    ensures var r := Distance(l, stablizePreamp, bus);
            r.out.err.Some? ==>
              StoppedAt(r.trace, n, l.address, DistanceSteps(l.address, stablizePreamp), r.out.err.value)
  {
    var lo := Read(l, DistanceLowRegister, w.rest);
    if lo.out.err.Some? {
      n := DistanceFailsAtLow(l, stablizePreamp, bus, w, lo);
    } else {
      n := DistanceFailsAtHigh(l, stablizePreamp, bus, w, lo);
    }
  }

  /** Distance when the read of the low byte was given up on. */
  lemma DistanceFailsAtLow(l: Lidar, stablizePreamp: bool, bus: seq<Reply>,
                           w: Run<Option<Error>>, lo: Run<Reading<bv8>>) returns (n: nat)
    requires w == WriteByteToRegister(l, ControlRegister, AcquireCommand(stablizePreamp), bus)
    requires w.out.None? && lo == Read(l, DistanceLowRegister, w.rest) && lo.out.err.Some?
    ensures var r := Distance(l, stablizePreamp, bus);
            r.out.err.Some? &&
            StoppedAt(r.trace, n, l.address, DistanceSteps(l.address, stablizePreamp), r.out.err.value)
  {
    var steps := DistanceSteps(l.address, stablizePreamp);
    n := |w.trace|;
    WriteEndsWithEffect(l, ControlRegister, AcquireCommand(stablizePreamp), bus);
    FirstStepTouches(w.trace, l.address, steps);
    ReadGivenUp(w.trace, w.trace + lo.trace, l, DistanceLowRegister, w.rest, steps);
    DistanceRunAt(l, stablizePreamp, bus, w.trace + lo.trace, lo.out.err);
  }

  /** Distance when the low byte was read: it fails only if the read of the
      high byte is given up on. */
  lemma DistanceFailsAtHigh(l: Lidar, stablizePreamp: bool, bus: seq<Reply>,
                            w: Run<Option<Error>>, lo: Run<Reading<bv8>>) returns (n: nat)
    requires w == WriteByteToRegister(l, ControlRegister, AcquireCommand(stablizePreamp), bus)
    requires w.out.None? && lo == Read(l, DistanceLowRegister, w.rest) && lo.out.err.None?
    ensures var r := Distance(l, stablizePreamp, bus);
            r.out.err.Some? ==>
              StoppedAt(r.trace, n, l.address, DistanceSteps(l.address, stablizePreamp), r.out.err.value)
  {
    var steps := DistanceSteps(l.address, stablizePreamp);
    var hi := Read(l, DistanceHighRegister, lo.rest);
    var wl := w.trace + lo.trace;
    n := |wl|;
    if hi.out.err.Some? {
      TriggerAndLowWent(l, stablizePreamp, bus, w, lo);
      ReadGivenUp(wl, wl + hi.trace, l, DistanceHighRegister, lo.rest, steps);
      DistanceRunAt(l, stablizePreamp, bus, wl + hi.trace, hi.out.err);
    } else {
      assert Distance(l, stablizePreamp, bus).out.err.None?;
    }
  }

  /** The trigger write followed by the read of the low byte is a run of
      Distance's first two steps, ending with that read. */
  lemma TriggerAndLowWent(l: Lidar, stablizePreamp: bool, bus: seq<Reply>,
                          w: Run<Option<Error>>, lo: Run<Reading<bv8>>)
    requires w == WriteByteToRegister(l, ControlRegister, AcquireCommand(stablizePreamp), bus)
    requires w.out.None? && lo == Read(l, DistanceLowRegister, w.rest) && lo.out.err.None?
    ensures var wl := w.trace + lo.trace;
            && |Effects(wl)| == 2 && EndsWithEffect(wl)
            && Touches(wl, l.address, DistanceSteps(l.address, stablizePreamp)[..2])
  {
    var steps := DistanceSteps(l.address, stablizePreamp);
    WriteEndsWithEffect(l, ControlRegister, AcquireCommand(stablizePreamp), bus);
    ReadEndsWithEffect(l, DistanceLowRegister, w.rest);
    assert steps[0] == WriteByte(l.address, ControlRegister, AcquireCommand(stablizePreamp));
    assert steps[1] == ReadByte(l.address, DistanceLowRegister);
    TwoStepsWent(w.trace, lo.trace, l.address, steps);
  }

  /** Distance's trace and error, when they are those of a failed read. */
  lemma DistanceRunAt(l: Lidar, stablizePreamp: bool, bus: seq<Reply>, t: seq<Txn>, err: Option<Error>)
    requires var w := WriteByteToRegister(l, ControlRegister, AcquireCommand(stablizePreamp), bus);
             var lo := Read(l, DistanceLowRegister, w.rest);
             var hi := Read(l, DistanceHighRegister, lo.rest);
             && w.out.None?
             && (if lo.out.err.Some? then t == w.trace + lo.trace && err == lo.out.err
                 else t == w.trace + lo.trace + hi.trace && err == hi.out.err && err.Some?)
    ensures Distance(l, stablizePreamp, bus).trace == t
    ensures Distance(l, stablizePreamp, bus).out.err == err
  {
  }

  /** The runs Distance is made of, and how its result is put together from
      them. */
  lemma DistanceRuns(l: Lidar, stablizePreamp: bool, bus: seq<Reply>)
      returns (w: Run<Option<Error>>, lo: Run<Reading<bv8>>, hi: Run<Reading<bv8>>)
    ensures w == WriteByteToRegister(l, ControlRegister, AcquireCommand(stablizePreamp), bus)
    ensures lo == Read(l, DistanceLowRegister, w.rest)
    ensures hi == Read(l, DistanceHighRegister, lo.rest)
    ensures var r := Distance(l, stablizePreamp, bus);
            if w.out.Some? then r.trace == w.trace && r.out.err == w.out
            else if lo.out.err.Some? then r.trace == w.trace + lo.trace && r.out.err == lo.out.err
            else && r.trace == w.trace + lo.trace + hi.trace && r.out.err == hi.out.err
                 && (hi.out.err.None? ==> r.out.value == Combine(hi.out.value, lo.out.value))
  {
    w := WriteByteToRegister(l, ControlRegister, AcquireCommand(stablizePreamp), bus);
    lo := Read(l, DistanceLowRegister, w.rest);
    hi := Read(l, DistanceHighRegister, lo.rest);
  }

  // ---------------------------------------------------------------------
  // Velocity

  /** The velocity protocol: select velocity mode, trigger, read 0x09. */
  function VelocitySteps(addr: bv8): seq<Op>
  {
    [WriteByte(addr, ModeRegister, 0xa0),
     WriteByte(addr, ControlRegister, 0x04),
     ReadByte(addr, VelocityRegister)]
  }

  /** Take one velocity measurement. The mode write is status-gated and
      retried, the trigger write goes straight to the transport, the result
      is read with retries. Returns -1 with the error of the first step that
      fails. */
  function Velocity(l: Lidar, bus: seq<Reply>): (r: Run<Reading<int>>)
    ensures Answered(bus, r)
    ensures r.out.err.None? ==> 0 <= r.out.value < 256
    ensures r.out.err.Some? ==> r.out.value == -1
  {
    var m := WriteByteToRegister(l, ModeRegister, 0xa0, bus);
    if m.out.Some? then Run(Reading(-1, m.out), m.trace, m.rest)
    else
      var g := RawWrite(l, ControlRegister, 0x04, m.rest);
      AnsweredThen(bus, m, g);
      if g.out.Some? then Run(Reading(-1, g.out), m.trace + g.trace, g.rest)
      else
        var v := Read(l, VelocityRegister, g.rest);
        AnsweredThen(bus, Then(m.trace, g), v);
        var t := m.trace + g.trace + v.trace;
        if v.out.err.Some? then Run(Reading(-1, v.out.err), t, v.rest)
        else Run(Reading(v.out.value as int, None), t, v.rest)
  }

  /** Velocity runs its three steps in order and stops at the first failure
      with that step's error. */
  lemma VelocityProtocol(l: Lidar, bus: seq<Reply>)
    ensures var r := Velocity(l, bus);
            Outcome(r.trace, VelocitySteps(l.address), r.out.err)
  {
    var steps := VelocitySteps(l.address);
    var m := WriteByteToRegister(l, ModeRegister, 0xa0, bus);
    if m.out.Some? {
      VelocityStopsAtMode(l, bus);
    } else {
      Start(steps);
      WriteStep([], m.trace, m.out, l, ModeRegister, 0xa0, bus, steps, 0);
      VelocityAfterMode(l, bus, m);
    }
  }

  /** Velocity when the mode write was given up on or failed. */
  lemma VelocityStopsAtMode(l: Lidar, bus: seq<Reply>)
    requires WriteByteToRegister(l, ModeRegister, 0xa0, bus).out.Some?
    ensures var r := Velocity(l, bus);
            Outcome(r.trace, VelocitySteps(l.address), r.out.err)
  {
    var steps := VelocitySteps(l.address);
    var m := WriteByteToRegister(l, ModeRegister, 0xa0, bus);
    var r := Velocity(l, bus);
    assert r == Run(Reading(-1, m.out), m.trace, m.rest);
    Start(steps);
    WriteStep([], r.trace, r.out.err, l, ModeRegister, 0xa0, bus, steps, 0);
    SteppedOutcome(r.trace, steps, 0, r.out.err);
  }

  /** Velocity once the mode write went through. */
  lemma VelocityAfterMode(l: Lidar, bus: seq<Reply>, m: Run<Option<Error>>)
    requires m == WriteByteToRegister(l, ModeRegister, 0xa0, bus) && m.out.None?
    requires Done(Effects(m.trace), VelocitySteps(l.address), 1)
    ensures var r := Velocity(l, bus);
            Outcome(r.trace, VelocitySteps(l.address), r.out.err)
  {
    var g := RawWrite(l, ControlRegister, 0x04, m.rest);
    if g.out.Some? {
      VelocityStopsAtTrigger(l, bus, m, g);
    } else {
      VelocityAfterTrigger(l, bus, m, g);
    }
  }

  /** Velocity when the trigger write failed. */
  lemma VelocityStopsAtTrigger(l: Lidar, bus: seq<Reply>, m: Run<Option<Error>>, g: Run<Option<Error>>)
    requires m == WriteByteToRegister(l, ModeRegister, 0xa0, bus) && m.out.None?
    requires Done(Effects(m.trace), VelocitySteps(l.address), 1)
    requires g == RawWrite(l, ControlRegister, 0x04, m.rest) && g.out.Some?
    ensures var r := Velocity(l, bus);
            Outcome(r.trace, VelocitySteps(l.address), r.out.err)
  {
    var steps := VelocitySteps(l.address);
    var r := Velocity(l, bus);
    assert r == Run(Reading(-1, g.out), m.trace + g.trace, g.rest);
    RawWriteStep(m.trace, r.trace, r.out.err, l, ControlRegister, 0x04, m.rest, steps, 1);
    SteppedOutcome(r.trace, steps, 1, r.out.err);
  }

  /** Velocity once the trigger write went through. */
  lemma VelocityAfterTrigger(l: Lidar, bus: seq<Reply>, m: Run<Option<Error>>, g: Run<Option<Error>>)
    requires m == WriteByteToRegister(l, ModeRegister, 0xa0, bus) && m.out.None?
    requires Done(Effects(m.trace), VelocitySteps(l.address), 1)
    requires g == RawWrite(l, ControlRegister, 0x04, m.rest) && g.out.None?
    ensures var r := Velocity(l, bus);
            Outcome(r.trace, VelocitySteps(l.address), r.out.err)
  {
    var steps := VelocitySteps(l.address);
    var r := Velocity(l, bus);
    var v := Read(l, VelocityRegister, g.rest);
    var mg := m.trace + g.trace;
    assert r.trace == mg + v.trace && r.out.err == v.out.err;
    RawWriteStep(m.trace, mg, g.out, l, ControlRegister, 0x04, m.rest, steps, 1);
    ReadStep(mg, r.trace, r.out.err, l, VelocityRegister, g.rest, steps, 2);
    SteppedOutcome(r.trace, steps, 2, r.out.err);
  }

  /** Apart from status polls, Velocity issues nothing but the operations of
      its three steps. */
  lemma VelocityTouchesOnlyItsSteps(l: Lidar, bus: seq<Reply>)
    ensures Touches(Velocity(l, bus).trace, l.address, VelocitySteps(l.address))
  {
    var steps := VelocitySteps(l.address);
    var m := WriteByteToRegister(l, ModeRegister, 0xa0, bus);
    TouchesStep(m.trace, l.address, steps, 0);
    if m.out.None? {
      var tail := VelocityTail(l, bus);
      var g := RawWrite(l, ControlRegister, 0x04, m.rest);
      assert Touches(g.trace, l.address, [steps[1]]) by {
        assert g.trace[0].op == steps[1];
      }
      TouchesStep(g.trace, l.address, steps, 1);
      TouchesStep(tail, l.address, steps, 2);
      TouchesAppend(m.trace, g.trace, l.address, steps);
      TouchesAppend(m.trace + g.trace, tail, l.address, steps);
    }
  }

  /** Velocity issues its steps strictly in order: the trigger only after
      the mode write went out, and nothing of the read of 0x09 before the
      trigger write. */
  lemma VelocityInStepOrder(l: Lidar, bus: seq<Reply>)
    ensures InStepOrder(Velocity(l, bus).trace, l.address, VelocitySteps(l.address))
  {
    var steps := VelocitySteps(l.address);
    var m := WriteByteToRegister(l, ModeRegister, 0xa0, bus);
    WriteTakesEffectAtEnd(l, ModeRegister, 0xa0, bus);
    assert [] + m.trace == m.trace;
    InStepOrderNext([], m.trace, l.address, steps, 0);
    if m.out.Some? {
      assert Velocity(l, bus) == Run(Reading(-1, m.out), m.trace, m.rest);
    } else {
      VelocityOrderAfterMode(l, bus, m);
    }
  }

  /** Velocity's steps after the mode write went out, in step order. */
  lemma VelocityOrderAfterMode(l: Lidar, bus: seq<Reply>, m: Run<Option<Error>>)
    requires m == WriteByteToRegister(l, ModeRegister, 0xa0, bus) && m.out.None?
    requires InStepOrder(m.trace, l.address, VelocitySteps(l.address))
    ensures InStepOrder(Velocity(l, bus).trace, l.address, VelocitySteps(l.address))
  {
    var steps := VelocitySteps(l.address);
    var g := RawWrite(l, ControlRegister, 0x04, m.rest);
    var v := Read(l, VelocityRegister, g.rest);
    var mg := m.trace + g.trace;
    VelocityTraceAfterMode(l, bus, m, g, v);
    ModeAndTriggerWent(l, bus, m, g);
    RawWriteTakesEffectAtEnd(l, ControlRegister, 0x04, m.rest);
    InStepOrderNext(m.trace, g.trace, l.address, steps, 1);
    if g.out.None? {
      ReadTakesEffectAtEnd(l, VelocityRegister, g.rest);
      InStepOrderNext(mg, v.trace, l.address, steps, 2);
    }
  }

  /** Velocity's trace once the mode write went out: the trigger write, and
      unless it failed, the run of the read. */
  lemma VelocityTraceAfterMode(l: Lidar, bus: seq<Reply>, m: Run<Option<Error>>,
                               g: Run<Option<Error>>, v: Run<Reading<bv8>>)
    requires m == WriteByteToRegister(l, ModeRegister, 0xa0, bus) && m.out.None?
    requires g == RawWrite(l, ControlRegister, 0x04, m.rest) && v == Read(l, VelocityRegister, g.rest)
    ensures Velocity(l, bus).trace ==
              if g.out.Some? then m.trace + g.trace else m.trace + g.trace + v.trace
  {
  }

  /** A successful Velocity returns the byte its third step read, as an
      unsigned number. */
  lemma VelocityReturnsByte(l: Lidar, bus: seq<Reply>)
    ensures var r := Velocity(l, bus);
            var e := Effects(r.trace);
            r.out.err.None? ==>
              && |e| == 3 && e[2].reply.Ok?
              && r.out.value == LowByte(e[2].reply.data) as int
  {
    var m, g, v := VelocityRuns(l, bus);
    if m.out.None? && g.out.None? && v.out.err.None? {
      EffectsOfThree(m.trace, g.trace, v.trace);
    }
  }

  /** A Velocity that fails stops at the step that failed: after the last
      step that went through, only the failed step's own attempts follow, and
      no later step is started. */
  lemma VelocityStopsAtFailure(l: Lidar, bus: seq<Reply>) returns (n: nat)
    ensures var r := Velocity(l, bus);
            r.out.err.Some? ==> StoppedAt(r.trace, n, l.address, VelocitySteps(l.address), r.out.err.value)
  {
    var m := WriteByteToRegister(l, ModeRegister, 0xa0, bus);
    if m.out.Some? {
      n := VelocityFailsAtMode(l, bus);
    } else {
      n := VelocityFailsAfterMode(l, bus, m);
    }
  }

  /** Velocity when the mode write was given up on or failed. */
  lemma VelocityFailsAtMode(l: Lidar, bus: seq<Reply>) returns (n: nat)
    requires WriteByteToRegister(l, ModeRegister, 0xa0, bus).out.Some?
    ensures var r := Velocity(l, bus);
            r.out.err.Some? && StoppedAt(r.trace, n, l.address, VelocitySteps(l.address), r.out.err.value)
  {
    var steps := VelocitySteps(l.address);
    var m := WriteByteToRegister(l, ModeRegister, 0xa0, bus);
    n := FirstWriteFails(l, ModeRegister, 0xa0, bus, steps);
    assert Velocity(l, bus) == Run(Reading(-1, m.out), m.trace, m.rest);
  }

  /** Velocity when the trigger write or the read failed after the mode
      write went through. */
  lemma VelocityFailsAfterMode(l: Lidar, bus: seq<Reply>, m: Run<Option<Error>>) returns (n: nat)
    requires m == WriteByteToRegister(l, ModeRegister, 0xa0, bus) && m.out.None?
    ensures var r := Velocity(l, bus);
            r.out.err.Some? ==> StoppedAt(r.trace, n, l.address, VelocitySteps(l.address), r.out.err.value)
  {
    var steps := VelocitySteps(l.address);
    var g := RawWrite(l, ControlRegister, 0x04, m.rest);
    var v := Read(l, VelocityRegister, g.rest);
    var mg := m.trace + g.trace;
    n := |mg|;
    ModeAndTriggerWent(l, bus, m, g);
    if g.out.Some? {
      assert Velocity(l, bus).trace == mg;
      TransportFailure(mg, l.address, steps, g.out.value);
    } else {
      assert Velocity(l, bus).trace == mg + v.trace;
      if v.out.err.Some? {
        ReadGivenUp(mg, mg + v.trace, l, VelocityRegister, g.rest, steps);
      }
    }
  }

  /** The mode write followed by the trigger write is a run of Velocity's
      first two steps, ending with the trigger. */
  lemma ModeAndTriggerWent(l: Lidar, bus: seq<Reply>, m: Run<Option<Error>>, g: Run<Option<Error>>)
    requires m == WriteByteToRegister(l, ModeRegister, 0xa0, bus) && m.out.None?
    requires g == RawWrite(l, ControlRegister, 0x04, m.rest)
    ensures var mg := m.trace + g.trace;
            && |Effects(mg)| == 2 && EndsWithEffect(mg)
            && Touches(mg, l.address, VelocitySteps(l.address)[..2])
  {
    var steps := VelocitySteps(l.address);
    WriteEndsWithEffect(l, ModeRegister, 0xa0, bus);
    RawWriteTakesEffectAtEnd(l, ControlRegister, 0x04, m.rest);
    assert EndsWithEffect(g.trace);
    TwoStepsWent(m.trace, g.trace, l.address, steps);
  }

  /** The runs Velocity is made of, and how its result is put together from
      them. */
  lemma VelocityRuns(l: Lidar, bus: seq<Reply>)
      returns (m: Run<Option<Error>>, g: Run<Option<Error>>, v: Run<Reading<bv8>>)
    ensures m == WriteByteToRegister(l, ModeRegister, 0xa0, bus)
    ensures g == RawWrite(l, ControlRegister, 0x04, m.rest)
    ensures v == Read(l, VelocityRegister, g.rest)
    ensures var r := Velocity(l, bus);
            if m.out.Some? then r.trace == m.trace && r.out.err == m.out
            else if g.out.Some? then r.trace == m.trace + g.trace && r.out.err == g.out
            else && r.trace == m.trace + g.trace + v.trace && r.out.err == v.out.err
                 && (v.out.err.None? ==> r.out.value == v.out.value as int)
  {
    m := WriteByteToRegister(l, ModeRegister, 0xa0, bus);
    g := RawWrite(l, ControlRegister, 0x04, m.rest);
    v := Read(l, VelocityRegister, g.rest);
  }

  /** The trigger write goes straight after the mode write: no status poll
      comes between them. */
  lemma VelocityTriggersAtOnce(l: Lidar, bus: seq<Reply>)
    ensures var steps := VelocitySteps(l.address);
            DirectlyFollows(Velocity(l, bus).trace, steps[0], steps[1])
  {
    var steps := VelocitySteps(l.address);
    var m := WriteByteToRegister(l, ModeRegister, 0xa0, bus);
    if m.out.Some? {
      TouchesAvoids(m.trace, l.address, [steps[0]], steps[1]);
    } else {
      TriggerAfterModeWrite(l, bus);
    }
  }

  /** Once the mode write has gone out, the trigger comes right after it. */
  lemma TriggerAfterModeWrite(l: Lidar, bus: seq<Reply>)
    requires WriteByteToRegister(l, ModeRegister, 0xa0, bus).out.None?
    ensures var steps := VelocitySteps(l.address);
            DirectlyFollows(Velocity(l, bus).trace, steps[0], steps[1])
  {
    var steps := VelocitySteps(l.address);
    var m := WriteByteToRegister(l, ModeRegister, 0xa0, bus);
    var g := RawWrite(l, ControlRegister, 0x04, m.rest);
    var tail := VelocityTail(l, bus);
    assert m.trace[|m.trace| - 1].op == steps[0];
    TouchesAvoids(m.trace, l.address, [steps[0]], steps[1]);
    TouchesAvoids(tail, l.address, [ReadByte(l.address, VelocityRegister)], steps[1]);
    DirectlyAfter(m.trace, g.trace, tail, steps[0], steps[1]);
  }

  /** What Velocity issues after the trigger write, once the mode write went
      through. */
  lemma VelocityTail(l: Lidar, bus: seq<Reply>) returns (tail: seq<Txn>)
    requires WriteByteToRegister(l, ModeRegister, 0xa0, bus).out.None?
    ensures var m := WriteByteToRegister(l, ModeRegister, 0xa0, bus);
            var g := RawWrite(l, ControlRegister, 0x04, m.rest);
            && Velocity(l, bus).trace == m.trace + g.trace + tail
            && Touches(tail, l.address, [ReadByte(l.address, VelocityRegister)])
  {
    var m := WriteByteToRegister(l, ModeRegister, 0xa0, bus);
    var g := RawWrite(l, ControlRegister, 0x04, m.rest);
    if g.out.Some? {
      tail := [];
      assert m.trace + g.trace + tail == m.trace + g.trace;
    } else {
      tail := Read(l, VelocityRegister, g.rest).trace;
    }
  }

  // ---------------------------------------------------------------------
  // Continuous mode

  /** The configuration written to start continuous mode, in order, as
      (register, value) pairs. */
  function ContinuousWrites(modePinLow: bool, interval: bv8, numberOfReadings: bv8): seq<(bv8, bv8)>
  {
    [(IntervalRegister, interval),
     (ModeRegister, if modePinLow then 0x21 else 0x20),
     (ReadingCountRegister, numberOfReadings),
     (ControlRegister, 0x04)]
  }

  /** Raw writes of the given (register, value) pairs, in order, stopping at
      the first that fails. The run issues a prefix of the writes, every write
      but the last succeeded, the result is the last write's error, and it is
      nil only once all writes went through. */
  function RawWrites(l: Lidar, writes: seq<(bv8, bv8)>, bus: seq<Reply>): (r: Run<Option<Error>>)
    decreases |writes|
    ensures Answered(bus, r)
    ensures |r.trace| <= |writes|
    ensures forall i :: 0 <= i < |r.trace| ==> r.trace[i].op == WriteByte(l.address, writes[i].0, writes[i].1)
    ensures forall i :: 0 <= i < |r.trace| - 1 ==> r.trace[i].reply.Ok?
    ensures |writes| > 0 ==> |r.trace| > 0 && r.out == ErrorOf(r.trace[|r.trace| - 1].reply)
    ensures r.out.None? ==> |r.trace| == |writes|
  {
    if |writes| == 0 then Run(None, [], bus)
    else
      var w := RawWrite(l, writes[0].0, writes[0].1, bus);
      if w.out.Some? then w
      else
        var more := RawWrites(l, writes[1..], w.rest);
        AnsweredThen(bus, w, more);
        var r := Then(w.trace, more);
        assert forall i :: 0 < i < |r.trace| ==> r.trace[i] == more.trace[i - 1];
        r
  }

  /** Start continuous mode: the four configuration writes, straight to the
      transport, stopping at the first that fails. */
  function BeginContinuous(l: Lidar, modePinLow: bool, interval: bv8, numberOfReadings: bv8,
                           bus: seq<Reply>): (r: Run<Option<Error>>)
    ensures Answered(bus, r)
    ensures var writes := ContinuousWrites(modePinLow, interval, numberOfReadings);
            && 1 <= |r.trace| <= |writes|
            && (forall i :: 0 <= i < |r.trace| ==>
                  r.trace[i].op == WriteByte(l.address, writes[i].0, writes[i].1))
            && (forall i :: 0 <= i < |r.trace| - 1 ==> r.trace[i].reply.Ok?)
            && r.out == ErrorOf(r.trace[|r.trace| - 1].reply)
            && (r.out.None? <==> |r.trace| == |writes| && r.trace[|r.trace| - 1].reply.Ok?)
  {
    RawWrites(l, ContinuousWrites(modePinLow, interval, numberOfReadings), bus)
  }

  /** Read the latest distance in continuous mode: one status poll, then at
      most one read of the 16-bit register 0x8f, with no retries. */
  function DistanceContinuous(l: Lidar, bus: seq<Reply>): (r: Run<Reading<int>>)
    ensures Answered(bus, r)
    ensures 1 <= |r.trace| <= 2 && r.trace[0].op == Poll(l.address)
    ensures |r.trace| == 2 <==> ReadGate(r.trace[0].reply)
    ensures |r.trace| == 2 ==> r.trace[1].op == ReadWord(l.address, ContinuousDistanceRegister)
    ensures r.out.err.None? <==> |r.trace| == 2 && r.trace[1].reply.Ok?
    ensures r.out.err.None? ==> r.out.value == r.trace[1].reply.data as int
    ensures r.out.err.Some? ==> r.out.value == -1
    ensures r.trace[0].reply.Err? ==> r.out.err == ErrorOf(r.trace[0].reply)
    ensures |r.trace| == 2 && r.trace[1].reply.Err? ==> r.out.err == ErrorOf(r.trace[1].reply)
    ensures r.trace[0].reply.Ok? ==>
              var st := LowByte(r.trace[0].reply.data);
              && (r.out.err == Some(CountingError) <==>
                    IsSet(st, Health) && IsSet(st, ErrorDetection))
              && (r.out.err == Some(NoAutomaticLimiting) <==>
                    IsSet(st, Health) && !IsSet(st, ErrorDetection) && !IsSet(st, SignalOverflow))
  {
    var s := GetStatus(l, bus);
    var w := ReadContinuousWord(l, s.rest);
    AnsweredThen(bus, s, w);
    if s.out.err.Some? then Run(Reading(-1, s.out.err), s.trace, s.rest)
    else match Classify(s.out.value)
      case BadHealth => Then(s.trace, w)
      case ErrorDetected => Run(Reading(-1, Some(CountingError)), s.trace, s.rest)
      case LimitingOff => Run(Reading(-1, Some(NoAutomaticLimiting)), s.trace, s.rest)
      case Nominal => Then(s.trace, w)
  }

  /** One read of the 16-bit continuous-mode distance register 0x8f. */
  function ReadContinuousWord(l: Lidar, bus: seq<Reply>): (r: Run<Reading<int>>)
    ensures Answered(bus, r)
    ensures |r.trace| == 1 && r.trace[0].op == ReadWord(l.address, ContinuousDistanceRegister)
    ensures r.out.err == ErrorOf(r.trace[0].reply)
    ensures r.out.err.None? ==> r.out.value == r.trace[0].reply.data as int
    ensures r.out.err.Some? ==> r.out.value == -1
  {
    var w := Transact(ReadWord(l.address, ContinuousDistanceRegister), bus);
    match w.out
    case Ok(d) => Run(Reading(d as int, None), w.trace, w.rest)
    case Err(e) => Run(Reading(-1, Some(Transport(e))), w.trace, w.rest)
  }
}

=== FILE: bus.dfy ===
/**
 * The I2C transport the driver talks through, abstracted as a finite stream
 * of replies. Every transaction the driver issues (a status poll, a byte
 * read, a byte write, a word read, closing the bus) consumes the next reply;
 * a stream that has run dry answers with `NoReply`. Every operation returns
 * the trace of the transactions it issued, each paired with the reply it got.
 */
module Bus {

  /** A failure reported by the transport. */
  datatype BusError = IoError(code: nat) | NoReply

  /** The transport's answer to one transaction. A byte read delivers the low
      byte of `data`, a word read all sixteen bits; writes and closing the bus
      only distinguish success from failure. */
  datatype Reply = Ok(data: bv16) | Err(error: BusError)

  /** One bus transaction, addressed to a device. `Poll` is the read of the
      status register 0x01 that the driver's GetStatus issues; it is tagged so
      that status polls can be told apart from register reads in a trace. */
  datatype Op =
    | Poll(addr: bv8)
    | ReadByte(addr: bv8, reg: bv8)
    | WriteByte(addr: bv8, reg: bv8, value: bv8)
    | ReadWord(addr: bv8, reg: bv8)
    | CloseBus

  /** A transaction together with the reply the transport gave it. */
  datatype Txn = Txn(op: Op, reply: Reply)

  /** The outcome of running an operation against a reply stream: its result,
      the transactions it issued in order, and the replies left over. */
  datatype Run<T> = Run(out: T, trace: seq<Txn>, rest: seq<Reply>)

  /** The byte a successful byte read delivers. */
  function LowByte(d: bv16): bv8
  {
    (d & 0xFF) as bv8
  }

  /** The `i`-th reply of a stream, or `NoReply` past its end. */
  function ReplyAt(bus: seq<Reply>, i: nat): Reply
  {
    if i < |bus| then bus[i] else Err(NoReply)
  }

  /** The stream left after `n` replies have been consumed. */
  function Drop(bus: seq<Reply>, n: nat): (rest: seq<Reply>)
    ensures |rest| == if n <= |bus| then |bus| - n else 0
  {
    if n <= |bus| then bus[n..] else []
  }

  /** `r` is what the transport answered: the `i`-th transaction got the
      `i`-th reply of `bus`, and exactly one reply was used per transaction. */
  ghost predicate Answered<T>(bus: seq<Reply>, r: Run<T>)
  {
    && r.rest == Drop(bus, |r.trace|)
    && forall i :: 0 <= i < |r.trace| ==> r.trace[i].reply == ReplyAt(bus, i)
  }

  /** Issue one transaction. */
  function Transact(op: Op, bus: seq<Reply>): (r: Run<Reply>)
    ensures Answered(bus, r)
    ensures r.trace == [Txn(op, r.out)]
  {
    if |bus| == 0 then Run(Err(NoReply), [Txn(op, Err(NoReply))], [])
    else Run(bus[0], [Txn(op, bus[0])], bus[1..])
  }

  /** `r` preceded by the transactions `before`. */
  function Then<T>(before: seq<Txn>, r: Run<T>): Run<T>
  {
    Run(r.out, before + r.trace, r.rest)
  }

  /** Answering two runs back to back answers their concatenation. */
  lemma {:induction false} AnsweredThen<S, T>(bus: seq<Reply>, first: Run<S>, second: Run<T>)
    requires Answered(bus, first)
    requires Answered(first.rest, second)
    ensures Answered(bus, Then(first.trace, second))
  {
    var n := |first.trace|;
    var both := Then(first.trace, second);
    forall i | 0 <= i < |both.trace|
      ensures both.trace[i].reply == ReplyAt(bus, i)
    {
      if i >= n {
        assert both.trace[i] == second.trace[i - n];
      }
    }
    if n + |second.trace| <= |bus| {
      assert bus[n..][|second.trace|..] == bus[n + |second.trace|..];
    }
  }

  /** Whether a transaction is a status poll. */
  predicate IsPoll(x: Txn)
  {
    x.op.Poll?
  }

  /** Every transaction of `t` is a status poll of device `addr` or one of `ops`. */
  ghost predicate Touches(t: seq<Txn>, addr: bv8, ops: seq<Op>)
  {
    forall i :: 0 <= i < |t| ==> t[i].op == Poll(addr) || t[i].op in ops
  }

  lemma TouchesAppend(a: seq<Txn>, b: seq<Txn>, addr: bv8, ops: seq<Op>)
    requires Touches(a, addr, ops) && Touches(b, addr, ops)
    ensures Touches(a + b, addr, ops)
  {
    forall i | 0 <= i < |a + b|
      ensures (a + b)[i].op == Poll(addr) || (a + b)[i].op in ops
    {
      if i >= |a| {
        assert (a + b)[i] == b[i - |a|];
      }
    }
  }

  /** A run that touches only step `k` of a protocol touches only the
      protocol's steps. */
  lemma TouchesStep(t: seq<Txn>, addr: bv8, steps: seq<Op>, k: nat)
    requires k < |steps| && Touches(t, addr, [steps[k]])
    ensures Touches(t, addr, steps)
  {
    forall i | 0 <= i < |t| && t[i].op != Poll(addr)
      ensures t[i].op in steps
    {
      assert t[i].op == steps[k];
    }
  }

  /** A run that touches only the first step of a protocol touches only
      `steps[..1]`. */
  lemma FirstStepTouches(t: seq<Txn>, addr: bv8, steps: seq<Op>)
    requires |steps| > 0 && Touches(t, addr, [steps[0]])
    ensures Touches(t, addr, steps[..1])
  {
    assert steps[..1] == [steps[0]];
  }

  /** A run that touches only `steps[..k]` and then only `steps[k]` touches
      only `steps[..k + 1]`. */
  lemma TouchesNext(a: seq<Txn>, b: seq<Txn>, addr: bv8, steps: seq<Op>, k: nat)
    requires k < |steps|
    requires Touches(a, addr, steps[..k]) && Touches(b, addr, [steps[k]])
    ensures Touches(a + b, addr, steps[..k + 1])
  {
    var ops := steps[..k + 1];
    assert ops == steps[..k] + [steps[k]];
    forall i | 0 <= i < |a + b| && (a + b)[i].op != Poll(addr)
      ensures (a + b)[i].op in ops
    {
      if i < |a| {
        assert (a + b)[i] == a[i];
      } else {
        assert (a + b)[i] == b[i - |a|];
      }
    }
  }

  /** Every `second` transaction of `t` comes directly after a `first` one. */
  ghost predicate DirectlyFollows(t: seq<Txn>, first: Op, second: Op)
  {
    forall i :: 0 <= i < |t| && t[i].op == second ==> 0 < i && t[i - 1].op == first
  }

  /** A run that touches only `ops` and status polls never issues `o`. */
  lemma TouchesAvoids(t: seq<Txn>, addr: bv8, ops: seq<Op>, o: Op)
    requires Touches(t, addr, ops) && !o.Poll? && o !in ops
    ensures forall i :: 0 <= i < |t| ==> t[i].op != o
  {
  }

  /** In `a + b + c`, the op `second` occurs only as the single transaction
      of `b`, which directly follows the last transaction of `a`, `first`. */
  lemma DirectlyAfter(a: seq<Txn>, b: seq<Txn>, c: seq<Txn>, first: Op, second: Op)
    requires |a| > 0 && a[|a| - 1].op == first
    requires |b| == 1 && b[0].op == second
    requires forall i :: 0 <= i < |a| ==> a[i].op != second
    requires forall i :: 0 <= i < |c| ==> c[i].op != second
    ensures DirectlyFollows(a + b + c, first, second)
  {
    var t := a + b + c;
    assert forall i :: 0 <= i < |a| ==> t[i] == a[i];
    assert forall i :: |a| < i < |t| ==> t[i] == c[i - |a| - 1];
    assert t[|a|] == b[0] && t[|a| - 1] == a[|a| - 1];
  }

  /** The number of status polls in a trace. */
  function Polls(t: seq<Txn>): (n: nat)
    ensures n <= |t|
  {
    if |t| == 0 then 0 else (if IsPoll(t[0]) then 1 else 0) + Polls(t[1..])
  }

  /** Whether a transaction took effect from the caller's point of view:
      status polls and failed byte reads (which the driver retries) did not;
      every write, word read, bus close and successful byte read did. */
  predicate Effective(x: Txn)
  {
    !x.op.Poll? && !(x.op.ReadByte? && x.reply.Err?)
  }

  /** The transactions of a trace that took effect, in order. */
  function Effects(t: seq<Txn>): (e: seq<Txn>)
    ensures |e| <= |t|
  {
    if |t| == 0 then []
    else (if Effective(t[0]) then [t[0]] else []) + Effects(t[1..])
  }

  /** Every transaction `Effects` keeps took effect. */
  lemma {:induction false} EffectsAreEffective(t: seq<Txn>)
    ensures forall x :: x in Effects(t) ==> Effective(x)
  {
    if |t| > 0 {
      EffectsAreEffective(t[1..]);
    }
  }

  /** Nothing in `t` takes effect before its last transaction. */
  ghost predicate EffectOnlyAtEnd(t: seq<Txn>)
  {
    forall j :: 0 <= j < |t| ==> Effects(t[..j]) == []
  }

  /** A run whose only effect, if any, is its last transaction takes effect
      only at its end. */
  lemma OnlyLastTakesEffect(t: seq<Txn>)
    requires |Effects(t)| == 0 || (|Effects(t)| == 1 && Effects(t)[0] == t[|t| - 1])
    ensures EffectOnlyAtEnd(t)
  {
    forall j | 0 <= j < |t|
      ensures Effects(t[..j]) == []
    {
      assert t == t[..j] + t[j..];
      EffectsAppend(t[..j], t[j..]);
      if |Effects(t)| == 1 {
        var last := t[|t| - 1];
        assert t[j..] == t[j..|t| - 1] + [last];
        EffectsAppend(t[j..|t| - 1], [last]);
        EffectsAreEffective(t);
        assert Effects(t)[0] in Effects(t);
        SingleEffect([last]);
      }
    }
  }

  /** A single transaction that took effect is its own effect. */
  lemma SingleEffect(t: seq<Txn>)
    requires |t| == 1 && Effective(t[0])
    ensures Effects(t) == t
  {
    assert t[1..] == [];
  }

  lemma {:induction false} PollsAppend(a: seq<Txn>, b: seq<Txn>)
    ensures Polls(a + b) == Polls(a) + Polls(b)
  {
    if |a| > 0 {
      assert (a + b)[1..] == a[1..] + b;
      PollsAppend(a[1..], b);
    } else {
      assert a + b == b;
    }
  }

  lemma {:induction false} EffectsAppend(a: seq<Txn>, b: seq<Txn>)
    ensures Effects(a + b) == Effects(a) + Effects(b)
  {
    if |a| > 0 {
      assert (a + b)[1..] == a[1..] + b;
      EffectsAppend(a[1..], b);
    } else {
      assert a + b == b;
    }
  }
}

=== FILE: lifecycle.dfy ===
/**
 * Opening and closing the device: NewLidar resets the FPGA with a write of
 * 0x00 to the control register and panics if that write fails; Close issues
 * the same reset on a best-effort basis and then closes the bus whatever the
 * reset's outcome.
 */
module Lifecycle {
  import opened Wrappers
  import opened Bus
  import opened Retry

  /** The value written to the control register to reset the FPGA, which
      reloads it from flash and returns every register to its default. */
  const ResetCommand: bv8 := 0x00

  /** What NewLidar leads to: a handle on the device, or the panic it raises
      when the reset write fails. */
  datatype Init = Ready(lidar: Lidar) | Panic(cause: Error)

  /** Open the device at `addr` on bus `busNumber` and reset it. The reset is
      written straight to the transport, without a status poll; the handle
      is returned exactly when that write succeeds, and otherwise the write's
      error is the cause of the panic. */
  function NewLidar(busNumber: bv8, addr: bv8, bus: seq<Reply>): (r: Run<Init>)
    ensures Answered(bus, r)
    ensures |r.trace| == 1 && r.trace[0].op == WriteByte(addr, ControlRegister, ResetCommand)
    ensures r.out.Ready? <==> r.trace[0].reply.Ok?
    ensures r.out.Ready? ==> r.out.lidar == Lidar(busNumber, addr)
    ensures r.out.Panic? ==> Some(r.out.cause) == ErrorOf(r.trace[0].reply)
  {
    var l := Lidar(busNumber, addr);
    var w := RawWrite(l, ControlRegister, ResetCommand, bus);
    match w.out
    case None => Run(Ready(l), w.trace, w.rest)
    case Some(e) => Run(Panic(e), w.trace, w.rest)
  }

  /** Release the device: reset it, then close the bus. Errors of either
      step are only logged, so the call returns nothing, and the bus is
      closed even when the reset write failed. */
  function Close(l: Lidar, bus: seq<Reply>): (r: Run<()>)
    ensures Answered(bus, r)
    ensures |r.trace| == 2
    ensures r.trace[0].op == WriteByte(l.address, ControlRegister, ResetCommand)
    ensures r.trace[1].op == CloseBus
  {
    var w := RawWrite(l, ControlRegister, ResetCommand, bus);
    var c := Transact(CloseBus, w.rest);
    AnsweredThen(bus, w, c);
    Run((), w.trace + c.trace, c.rest)
  }

  /** Close goes on to close the bus whatever the reset write answered: two
      reply streams that differ only in the reset's reply lead to the same
      transactions. */
  lemma CloseIgnoresResetFailure(l: Lidar, first: Reply, other: Reply, rest: seq<Reply>)
    ensures var a := Close(l, [first] + rest);
            var b := Close(l, [other] + rest);
            && a.trace[1] == b.trace[1]
            && a.rest == b.rest
  {
    assert ([first] + rest)[1..] == rest;
    assert ([other] + rest)[1..] == rest;
  }

  /** Closing twice resets the device both times and closes the bus both
      times. */
  lemma CloseTwice(l: Lidar, bus: seq<Reply>)
    ensures var first := Close(l, bus);
            var second := Close(l, first.rest);
            var t := first.trace + second.trace;
            && |t| == 4
            && t[0].op == t[2].op == WriteByte(l.address, ControlRegister, ResetCommand)
            && t[1].op == t[3].op == CloseBus
  {
  }
}

=== FILE: properties.dfy ===
/**
 * Properties of the driver that relate several of its operations, or an
 * operation to an independent description of what it should do: which
 * statuses let a register read through, where reads and writes can occur in
 * a retry loop's trace, the reconstruction of a 16-bit distance from its
 * bytes, and worked examples.
 */
module Properties {
  import opened Wrappers
  import opened Status
  import opened Bus
  import opened Retry
  import opened Protocol
  import opened Acquisition

  // ---------------------------------------------------------------------
  // Status gating

  /** Read reads the register after a status exactly when health is bad, or
      health is good, no error is detected and automatic limiting occurred. */
  lemma ReadsRegisterExactly(st: bv8)
    ensures ReadsRegister(st) <==>
              || !IsSet(st, Health)
              || (!IsSet(st, ErrorDetection) && IsSet(st, SignalOverflow))
  {
  }

  /** The health bit is tested first: with bad health the error-detection
      bit has no influence on the verdict. */
  lemma ErrorBitIgnoredWhenUnhealthy(st: bv8)
    requires !IsSet(st, Health)
    ensures Classify(st ^ Mask(ErrorDetection)) == Classify(st) == BadHealth
  {
    TestIgnoresOtherBits(st, Health, ErrorDetection);
  }

  /** DistanceContinuous does not look at the error-detection bit when the
      status reports bad health: flipping that bit changes nothing it does. */
  lemma ContinuousIgnoresErrorBitWhenUnhealthy(l: Lidar, d: bv16, rest: seq<Reply>)
    requires !IsSet(LowByte(d), Health)
    ensures var a := DistanceContinuous(l, [Ok(d)] + rest);
            var b := DistanceContinuous(l, [Ok(d ^ 0x40)] + rest);
            && a.out == b.out
            && |a.trace| == |b.trace| == 2
            && a.trace[1] == b.trace[1]
  {
    assert LowByte(d ^ 0x40) == LowByte(d) ^ Mask(ErrorDetection);
    ErrorBitIgnoredWhenUnhealthy(LowByte(d));
    assert ([Ok(d)] + rest)[1..] == rest;
    assert ([Ok(d ^ 0x40)] + rest)[1..] == rest;
  }

  /** Read does not look at the NotReady bit: flipping it never changes
      whether the register is read. */
  lemma ReadIgnoresNotReady(st: bv8)
    ensures ReadsRegister(st ^ Mask(NotReady)) == ReadsRegister(st)
  {
    TestIgnoresOtherBits(st, Health, NotReady);
    TestIgnoresOtherBits(st, ErrorDetection, NotReady);
    TestIgnoresOtherBits(st, SignalOverflow, NotReady);
  }

  /** With bad health, DistanceContinuous still reads the word register and
      returns what it read. */
  lemma ContinuousReadsWhenUnhealthy(l: Lidar, d: bv16, w: bv16, rest: seq<Reply>)
    requires !IsSet(LowByte(d), Health)
    ensures DistanceContinuous(l, [Ok(d), Ok(w)] + rest).out == Reading(w as int, None)
  {
    assert ([Ok(d), Ok(w)] + rest)[1..] == [Ok(w)] + rest;
  }

  // ---------------------------------------------------------------------
  // Where Read reads

  /** In `t`, every read of register `reg` comes directly after a status poll
      that let it through, and every such poll is directly followed by a
      read of `reg`. */
  ghost predicate ReadsFollowGate(t: seq<Txn>, addr: bv8, reg: bv8)
  {
    && (forall i :: 0 <= i < |t| && t[i].op == ReadByte(addr, reg) ==>
          0 < i && t[i - 1].op == Poll(addr) && ReadGate(t[i - 1].reply))
    && (forall i :: 0 <= i < |t| && t[i].op == Poll(addr) && ReadGate(t[i].reply) ==>
          i + 1 < |t| && t[i + 1].op == ReadByte(addr, reg))
  }

  /** Every register read of `t` before position `n` failed. */
  ghost predicate EarlierReadsFailed(t: seq<Txn>, addr: bv8, reg: bv8, n: nat)
  {
    forall i :: 0 <= i < n && i < |t| && t[i].op == ReadByte(addr, reg) ==> t[i].reply.Err?
  }

  /** The gating of `pre + t` from that of its parts, when `pre` does not end
      with a poll that lets a read through and `t` begins with a poll. */
  lemma GatedConcat(pre: seq<Txn>, t: seq<Txn>, addr: bv8, reg: bv8)
    requires ReadsFollowGate(pre, addr, reg) && ReadsFollowGate(t, addr, reg)
    requires |pre| > 0 && !(pre[|pre| - 1].op == Poll(addr) && ReadGate(pre[|pre| - 1].reply))
    requires |t| > 0 ==> t[0].op == Poll(addr)
    ensures ReadsFollowGate(pre + t, addr, reg)
  {
    var u := pre + t;
    assert forall i :: 0 <= i < |pre| ==> u[i] == pre[i];
    assert forall i :: |pre| <= i < |u| ==> u[i] == t[i - |pre|];
  }

  /** One failed attempt, or a poll that kept the read back, followed by
      `t`: the earlier reads of the whole failed too. */
  lemma FailedConcat(pre: seq<Txn>, t: seq<Txn>, addr: bv8, reg: bv8, n: nat)
    requires EarlierReadsFailed(pre, addr, reg, |pre|) && EarlierReadsFailed(t, addr, reg, n)
    ensures EarlierReadsFailed(pre + t, addr, reg, |pre| + n)
  {
    var u := pre + t;
    assert forall i :: 0 <= i < |pre| ==> u[i] == pre[i];
    assert forall i :: |pre| <= i < |u| ==> u[i] == t[i - |pre|];
  }

  lemma {:induction false} FailedReadsLayout(t: seq<Txn>, addr: bv8, reg: bv8)
    requires FailedReads(t, addr, reg)
    ensures ReadsFollowGate(t, addr, reg)
    ensures EarlierReadsFailed(t, addr, reg, |t|)
    ensures |t| > 0 ==> t[0].op == Poll(addr)
    decreases |t|
  {
    if |t| > 0 {
      var n := if ReadGate(t[0].reply) then 2 else 1;
      FailedReadsLayout(t[n..], addr, reg);
      AttemptLayout(t, n, addr, reg);
    }
  }

  lemma {:induction false} ReadDeliveredLayout(t: seq<Txn>, addr: bv8, reg: bv8, v: bv8)
    requires ReadDelivered(t, addr, reg, v)
    ensures ReadsFollowGate(t, addr, reg)
    ensures EarlierReadsFailed(t, addr, reg, |t| - 1)
    ensures t[0].op == Poll(addr)
    decreases |t|
  {
    if ReadGate(t[0].reply) && t[1].reply.Ok? {
    } else {
      var n := if ReadGate(t[0].reply) then 2 else 1;
      ReadDeliveredLayout(t[n..], addr, reg, v);
      AttemptLayout(t, n, addr, reg);
    }
  }

  /** The first attempt of a retry loop, `t[..n]`, that did not deliver:
      a poll that kept the read back (`n == 1`), or a poll that let it
      through and the failed read that followed (`n == 2`). */
  lemma AttemptLayout(t: seq<Txn>, n: nat, addr: bv8, reg: bv8)
    requires 1 <= n <= 2 && n <= |t| && t[0].op == Poll(addr)
    requires n == 1 <==> !ReadGate(t[0].reply)
    requires n == 2 ==> t[1].op == ReadByte(addr, reg) && t[1].reply.Err?
    requires ReadsFollowGate(t[n..], addr, reg)
    requires |t[n..]| > 0 ==> t[n..][0].op == Poll(addr)
    ensures ReadsFollowGate(t, addr, reg)
    ensures forall m: nat :: EarlierReadsFailed(t[n..], addr, reg, m) ==>
              EarlierReadsFailed(t, addr, reg, n + m)
  {
    assert t == t[..n] + t[n..];
    GatedConcat(t[..n], t[n..], addr, reg);
    forall m: nat | EarlierReadsFailed(t[n..], addr, reg, m)
      ensures EarlierReadsFailed(t, addr, reg, n + m)
    {
      FailedConcat(t[..n], t[n..], addr, reg, m);
    }
  }

  /** Read reads the register only right after a status that lets the read
      through, and reads it right after every such status; every read but
      the one that delivers the value failed, and that one is the last
      transaction: Read returns the first register read that succeeds. */
  lemma ReadReadsOnlyWhenGated(l: Lidar, reg: bv8, bus: seq<Reply>)
    ensures var r := Read(l, reg, bus);
            && ReadsFollowGate(r.trace, l.address, reg)
            && (r.out.err.None? ==>
                  && EarlierReadsFailed(r.trace, l.address, reg, |r.trace| - 1)
                  && r.trace[|r.trace| - 1].op == ReadByte(l.address, reg)
                  && r.trace[|r.trace| - 1].reply.Ok?
                  && r.out.value == LowByte(r.trace[|r.trace| - 1].reply.data))
            && (r.out.err.Some? ==> EarlierReadsFailed(r.trace, l.address, reg, |r.trace|))
  {
    var r := Read(l, reg, bus);
    ReadWaitsForGate(l, reg, bus);
    if r.out.err.None? {
      ReadDeliveredLayout(r.trace, l.address, reg, r.out.value);
      ReadDeliveredShape(r.trace, l.address, reg, r.out.value);
    } else {
      FailedReadsLayout(r.trace, l.address, reg);
    }
  }

  /** When no status lets the read through, Read polls MaxAttemptNumber
      times, reads nothing and gives up with ReadLimit. Every poll failing
      is one such case; statuses reporting good health with an error
      detected are another (ReadGivesUpOnErrorStatus). */
  lemma ReadGivesUpWithoutGate(l: Lidar, reg: bv8, bus: seq<Reply>)
    requires forall i :: 0 <= i < |bus| ==> !ReadGate(bus[i])
    ensures var r := Read(l, reg, bus);
            && r.out == Reading(0, Some(ReadLimit))
            && Polls(r.trace) == MaxAttemptNumber
            && forall i :: 0 <= i < |r.trace| ==> r.trace[i].op == Poll(l.address)
  {
    var r := Read(l, reg, bus);
    ReadReadsOnlyWhenGated(l, reg, bus);
    forall i | 0 <= i < |r.trace|
      ensures r.trace[i].op != ReadByte(l.address, reg)
    {
      if 0 < i {
        assert r.trace[i - 1].reply == ReplyAt(bus, i - 1);
      }
    }
  }

  /** Statuses that all report good health and an error detected never let
      the read through: Read gives up after MaxAttemptNumber polls, having
      read nothing. */
  lemma ReadGivesUpOnErrorStatus(l: Lidar, reg: bv8, bus: seq<Reply>)
    requires forall i :: 0 <= i < |bus| ==>
               && bus[i].Ok?
               && IsSet(LowByte(bus[i].data), Health)
               && IsSet(LowByte(bus[i].data), ErrorDetection)
    ensures var r := Read(l, reg, bus);
            && r.out == Reading(0, Some(ReadLimit))
            && Polls(r.trace) == MaxAttemptNumber
            && forall i :: 0 <= i < |r.trace| ==> r.trace[i].op == Poll(l.address)
  {
    forall i | 0 <= i < |bus|
      ensures !ReadGate(bus[i])
    {
      assert Classify(LowByte(bus[i].data)) == ErrorDetected;
    }
    ReadGivesUpWithoutGate(l, reg, bus);
  }

  // ---------------------------------------------------------------------
  // Where WriteByteToRegister writes

  lemma {:induction false} WroteWhenReadyLayout(t: seq<Txn>, addr: bv8, reg: bv8, value: bv8)
    requires WroteWhenReady(t, addr, reg, value)
    ensures |t| >= 2
    ensures forall i :: 0 <= i < |t| - 1 ==> t[i].op == Poll(addr)
    ensures forall i :: 0 <= i < |t| - 2 ==> !WriteGate(t[i].reply)
    ensures WriteGate(t[|t| - 2].reply) && t[|t| - 1].op == WriteByte(addr, reg, value)
    decreases |t|
  {
    if !WriteGate(t[0].reply) {
      WroteWhenReadyLayout(t[1..], addr, reg, value);
      assert forall i :: 0 < i < |t| ==> t[i] == t[1..][i - 1];
    }
  }

  /** In `t`, a write occurs only as the last transaction, right after a
      status poll reporting the device ready, and every such poll is
      directly followed by the write of `value` to `reg`. */
  ghost predicate WritesOnlyWhenReady(t: seq<Txn>, addr: bv8, reg: bv8, value: bv8)
  {
    && (forall i :: 0 <= i < |t| && t[i].op.WriteByte? ==>
          && i == |t| - 1 && 0 < i
          && t[i - 1].op == Poll(addr) && WriteGate(t[i - 1].reply))
    && (forall i :: 0 <= i < |t| && t[i].op.Poll? && WriteGate(t[i].reply) ==>
          i + 1 < |t| && t[i + 1].op == WriteByte(addr, reg, value))
  }

  /** `t` holds a write. */
  ghost predicate Wrote(t: seq<Txn>)
  {
    exists i :: 0 <= i < |t| && t[i].op.WriteByte?
  }

  /** Polls that kept the write back hold no write. */
  lemma BusyPollsWriteNothing(t: seq<Txn>, addr: bv8, reg: bv8, value: bv8)
    requires BusyPolls(t, addr)
    ensures WritesOnlyWhenReady(t, addr, reg, value) && !Wrote(t)
  {
  }

  /** A loop that wrote did so once, last, right after the ready status. */
  lemma WroteOnceWhenReady(t: seq<Txn>, addr: bv8, reg: bv8, value: bv8)
    requires WroteWhenReady(t, addr, reg, value)
    ensures WritesOnlyWhenReady(t, addr, reg, value) && Wrote(t)
  {
    WroteWhenReadyLayout(t, addr, reg, value);
    assert t[|t| - 1].op.WriteByte?;
  }

  /** WriteByteToRegister writes only right after a status reporting the
      device ready and never after a failed status read or one reporting it
      busy; it writes at most once, right after the first ready status, and
      that write is its last transaction. It gives up with WriteLimit exactly
      when it wrote nothing. */
  lemma WriteOnlyWhenReady(l: Lidar, reg: bv8, value: bv8, bus: seq<Reply>)
    ensures var r := WriteByteToRegister(l, reg, value, bus);
            && WritesOnlyWhenReady(r.trace, l.address, reg, value)
            && (r.out == Some(WriteLimit) <==> !Wrote(r.trace))
  {
    var r := WriteByteToRegister(l, reg, value, bus);
    WriteWaitsForReady(l, reg, value, bus);
    if r.out == Some(WriteLimit) {
      BusyPollsWriteNothing(r.trace, l.address, reg, value);
    } else {
      WroteOnceWhenReady(r.trace, l.address, reg, value);
    }
  }

  // ---------------------------------------------------------------------
  // The 16-bit distance

  /** Adding the shifted high byte to the low byte, as the driver does, is
      the same as combining the two bytes bitwise into one 16-bit word. */
  lemma CombineIsBitwise(high: bv8, low: bv8)
    ensures Combine(high, low) == (((high as bv16) << 8) | (low as bv16)) as int
  {
    assert ((high as bv16) << 8) as int == high as int * 256;
    assert ((high as bv16) << 8) & (low as bv16) == 0;
    assert ((high as bv16) << 8) | (low as bv16) == ((high as bv16) << 8) + (low as bv16);
  }

  /** Every 16-bit distance is the combination of its high and low byte:
      Combine loses nothing. */
  lemma CombineSplits(w: bv16)
    ensures Combine((w >> 8) as bv8, (w & 0xFF) as bv8) == w as int
  {
    CombineIsBitwise((w >> 8) as bv8, (w & 0xFF) as bv8);
    assert ((((w >> 8) as bv8) as bv16) << 8) | (((w & 0xFF) as bv8) as bv16) == w;
  }

  /** Different byte pairs give different distances. */
  lemma CombineInjective(h1: bv8, l1: bv8, h2: bv8, l2: bv8)
    requires Combine(h1, l1) == Combine(h2, l2)
    ensures h1 == h2 && l1 == l2
  {
    assert h1 as int == h2 as int && l1 as int == l2 as int;
    ByteValue(h1, h2);
    ByteValue(l1, l2);
  }

  /** A byte is determined by its value. */
  lemma ByteValue(a: bv8, b: bv8)
    requires a as int == b as int
    ensures a == b
  {
  }

  // ---------------------------------------------------------------------
  // Worked examples

  /** A device busy for two polls and ready on the third: the write goes out
      on the third attempt and its success is returned. */
  lemma WriteOnThirdAttempt()
    ensures var r := WriteByteToRegister(Lidar(1, 0x62), ControlRegister, 0x04,
                                         [Ok(0x01), Ok(0x01), Ok(0x00), Ok(0x00)]);
            && r.out == None
            && |r.trace| == 4
            && r.trace[3] == Txn(WriteByte(0x62, ControlRegister, 0x04), Ok(0x00))
  {
  }

  /** With a status that lets the read through and a read that succeeds,
      Read takes one attempt: one poll, one read, and the byte read. */
  lemma ReadAtOnce(l: Lidar, reg: bv8, st: bv16, d: bv16, rest: seq<Reply>)
    requires ReadGate(Ok(st))
    ensures Read(l, reg, [Ok(st), Ok(d)] + rest)
            == Run(Reading(LowByte(d), None),
                   [Txn(Poll(l.address), Ok(st)), Txn(ReadByte(l.address, reg), Ok(d))], rest)
  {
    var bus := [Ok(st), Ok(d)] + rest;
    var s := GetStatus(l, bus);
    assert s.out == Reading(LowByte(st), None) && s.rest == bus[1..];
    var x := Transact(ReadByte(l.address, reg), s.rest);
    assert x.out == Ok(d) && x.rest == rest;
  }

  /** With a status reporting the device ready, WriteByteToRegister takes one
      attempt: one poll, then the write, whose reply decides the result. */
  lemma WriteAtOnce(l: Lidar, reg: bv8, value: bv8, st: bv16, reply: Reply, rest: seq<Reply>)
    requires WriteGate(Ok(st))
    ensures WriteByteToRegister(l, reg, value, [Ok(st), reply] + rest)
            == Run(ErrorOf(reply),
                   [Txn(Poll(l.address), Ok(st)), Txn(WriteByte(l.address, reg, value), reply)], rest)
  {
    var bus := [Ok(st), reply] + rest;
    var s := GetStatus(l, bus);
    assert s.out == Reading(LowByte(st), None) && s.rest == bus[1..];
    var w := Transact(WriteByte(l.address, reg, value), s.rest);
    assert w.out == reply && w.rest == rest;
  }

  /** A single-shot measurement in which every status is nominal and the
      bytes read are 0x10 (low) and 0x01 (high): the distance is 272 cm. */
  lemma DistanceExample()
    ensures Distance(Lidar(1, 0x62), true,
                     [Ok(0x00), Ok(0x00), Ok(0x24), Ok(0x10), Ok(0x24), Ok(0x01)]).out
            == Reading(272, None)
  {
    var l := Lidar(1, 0x62);
    var bus := [Ok(0x00), Ok(0x00), Ok(0x24), Ok(0x10), Ok(0x24), Ok(0x01)];
    assert WriteGate(Ok(0x00)) && ReadGate(Ok(0x24));
    WriteAtOnce(l, ControlRegister, 0x04, 0x00, Ok(0x00), bus[2..]);
    assert bus == [Ok(0x00), Ok(0x00)] + bus[2..];
    ReadAtOnce(l, DistanceLowRegister, 0x24, 0x10, bus[4..]);
    assert bus[2..] == [Ok(0x24), Ok(0x10)] + bus[4..];
    ReadAtOnce(l, DistanceHighRegister, 0x24, 0x01, []);
    assert bus[4..] == [Ok(0x24), Ok(0x01)] + [];
  }

  /** A trace that tries the high byte 0x0f before the trigger write, even
      with a read that fails and so leaves no effect, is out of Distance's
      step order. */
  lemma EarlyReadOutOfOrder(a: bv8)
    ensures !InStepOrder([Txn(Poll(a), Ok(0)), Txn(ReadByte(a, 0x0f), Err(NoReply)),
                          Txn(Poll(a), Ok(0)), Txn(WriteByte(a, 0x00, 0x04), Ok(0))],
                         a, DistanceSteps(a, true))
  {
    var t := [Txn(Poll(a), Ok(0)), Txn(ReadByte(a, 0x0f), Err(NoReply)),
              Txn(Poll(a), Ok(0)), Txn(WriteByte(a, 0x00, 0x04), Ok(0))];
    assert t[..1] == [t[0]] && Effects([t[0]]) == [];
    assert DistanceSteps(a, true)[..1] == [WriteByte(a, 0x00, 0x04)];
  }
}

=== FILE: protocol.dfy ===
/**
 * Runs of a fixed multi-step protocol: a sequence of register operations,
 * each either retried behind status polls or issued directly, stopping at
 * the first step that fails. The predicates here say what such a run looks
 * like from its trace; the lemmas build that up one step at a time.
 */
module Protocol {
  import opened Wrappers
  import opened Bus
  import opened Retry

  /** `e`, the transactions of a run that took effect, are what running the
      protocol `steps` in order and stopping at the first failure leaves: the
      first steps of the protocol, in order, each successful except possibly
      the last. */
  predicate Ran(e: seq<Txn>, steps: seq<Op>)
    decreases |e|
  {
    || |e| == 0
    || (&& |steps| > 0
        && e[0].op == steps[0]
        && if e[0].reply.Ok? then Ran(e[1..], steps[1..]) else |e| == 1)
  }

  /** The first `k` steps of the protocol took effect, all successfully, and
      nothing else did. */
  predicate Done(e: seq<Txn>, steps: seq<Op>, k: nat)
  {
    Ran(e, steps) && |e| == k && (k == 0 || e[k - 1].reply.Ok?)
  }

  /** Every step of the protocol took effect and succeeded. */
  predicate Completed(e: seq<Txn>, steps: seq<Op>)
  {
    Done(e, steps, |steps|)
  }

  /** The error of a run that did not complete: the transport error of the
      step that failed, or the limit error of the retried step that was
      given up on. */
  function AbortError(e: seq<Txn>, steps: seq<Op>): Error
  {
    if |e| > 0 && e[|e| - 1].reply.Err? then Transport(e[|e| - 1].reply.error)
    else if |e| < |steps| && steps[|e|].WriteByte? then WriteLimit
    else ReadLimit
  }

  /** A run that has done its first `|e|` steps and then takes effect with
      the next step still follows the protocol. */
  lemma {:induction false} RanExtend(e: seq<Txn>, steps: seq<Op>, x: Txn)
    requires Done(e, steps, |e|) && |e| < |steps| && x.op == steps[|e|]
    ensures Ran(e + [x], steps)
    decreases |e|
  {
    if |e| == 0 {
      assert (e + [x])[1..] == [];
    } else {
      assert (e + [x])[1..] == e[1..] + [x];
      assert e[1..] == [] || e[1..][|e| - 2] == e[|e| - 1];
      RanExtend(e[1..], steps[1..], x);
    }
  }

  /** Where a run with transactions `t` stands after step `k`, the step
      having returned `err`: with no error the first `k + 1` steps are done;
      with an error the run follows the protocol, did not complete it, and
      reports the error AbortError assigns it. */
  ghost predicate Stepped(t: seq<Txn>, steps: seq<Op>, k: nat, err: Option<Error>)
  {
    var e := Effects(t);
    if err.None? then Done(e, steps, k + 1)
    else Ran(e, steps) && !Completed(e, steps) && AbortError(e, steps) == err.value
  }

  /** The overall outcome of a protocol run with transactions `t` and result
      error `err`: it follows the protocol, completes it exactly when there
      is no error, and otherwise reports the error of the step it stopped
      at. */
  ghost predicate Outcome(t: seq<Txn>, steps: seq<Op>, err: Option<Error>)
  {
    var e := Effects(t);
    && Ran(e, steps)
    && (err.None? <==> Completed(e, steps))
    && (err.Some? ==> err == Some(AbortError(e, steps)))
  }

  /** Before the first step nothing has taken effect. */
  lemma Start(steps: seq<Op>)
    ensures Done(Effects([]), steps, 0)
  {
  }

  /** Running step `k` after the first `k` steps went through in `p`, where
      the step's own run `q` ends with error `err`: the step either took no
      effect, and was given up on with its limit error, or took the one
      effect of the step, whose reply decides `err`. */
  lemma StepOnto(p: seq<Txn>, q: seq<Txn>, t: seq<Txn>, steps: seq<Op>, k: nat, err: Option<Error>)
    requires Done(Effects(p), steps, k) && k < |steps|
    requires t == p + q
    requires Effects(q) == [] ==>
               err == Some(if steps[k].WriteByte? then WriteLimit else ReadLimit)
    requires Effects(q) != [] ==>
               |Effects(q)| == 1 && Effects(q)[0].op == steps[k] && err == ErrorOf(Effects(q)[0].reply)
    ensures Stepped(t, steps, k, err)
  {
    EffectsAppend(p, q);
    if Effects(q) == [] {
      assert Effects(t) == Effects(p);
    } else {
      var x := Effects(q)[0];
      assert Effects(q) == [x];
      RanExtend(Effects(p), steps, x);
      assert Effects(t)[k] == x;
    }
  }

  /** The last step leaves the run where Outcome says. */
  lemma SteppedOutcome(t: seq<Txn>, steps: seq<Op>, k: nat, err: Option<Error>)
    requires Stepped(t, steps, k, err)
    requires err.None? ==> k + 1 == |steps|
    ensures Outcome(t, steps, err)
  {
  }

  /** The effects of three runs with one effect each. */
  lemma EffectsOfThree(a: seq<Txn>, b: seq<Txn>, c: seq<Txn>)
    requires |Effects(a)| == 1 && |Effects(b)| == 1 && |Effects(c)| == 1
    ensures Effects(a + b + c) == [Effects(a)[0], Effects(b)[0], Effects(c)[0]]
  {
    EffectsAppend(a, b);
    EffectsAppend(a + b, c);
  }

  /** A status-gated write as step `k`, the run so far being `p`. */
  lemma WriteStep(p: seq<Txn>, t: seq<Txn>, err: Option<Error>,
                  l: Lidar, reg: bv8, value: bv8, bus: seq<Reply>, steps: seq<Op>, k: nat)
    requires Done(Effects(p), steps, k) && k < |steps|
    requires steps[k] == WriteByte(l.address, reg, value)
    requires var w := WriteByteToRegister(l, reg, value, bus);
             t == p + w.trace && err == w.out
    ensures Stepped(t, steps, k, err)
  {
    var w := WriteByteToRegister(l, reg, value, bus);
    StepOnto(p, w.trace, t, steps, k, err);
  }

  /** A raw write as step `k`, the run so far being `p`. */
  lemma RawWriteStep(p: seq<Txn>, t: seq<Txn>, err: Option<Error>,
                     l: Lidar, reg: bv8, value: bv8, bus: seq<Reply>, steps: seq<Op>, k: nat)
    requires Done(Effects(p), steps, k) && k < |steps|
    requires steps[k] == WriteByte(l.address, reg, value)
    requires var w := RawWrite(l, reg, value, bus);
             t == p + w.trace && err == w.out
    ensures Stepped(t, steps, k, err)
  {
    var w := RawWrite(l, reg, value, bus);
    StepOnto(p, w.trace, t, steps, k, err);
  }

  /** A retried register read as step `k`, the run so far being `p`. */
  lemma ReadStep(p: seq<Txn>, t: seq<Txn>, err: Option<Error>,
                 l: Lidar, reg: bv8, bus: seq<Reply>, steps: seq<Op>, k: nat)
    requires Done(Effects(p), steps, k) && k < |steps|
    requires steps[k] == ReadByte(l.address, reg)
    requires var x := Read(l, reg, bus);
             t == p + x.trace && err == x.out.err
    ensures Stepped(t, steps, k, err)
  {
    var x := Read(l, reg, bus);
    StepOnto(p, x.trace, t, steps, k, err);
  }

  // ---------------------------------------------------------------------
  // Where a failed run stops

  /** The last transaction of `p` is its last effect: nothing without effect
      was issued after the last step that went through. */
  ghost predicate EndsWithEffect(p: seq<Txn>)
  {
    |p| > 0 ==> Effects(p) != [] && p[|p| - 1] == Effects(p)[|Effects(p)| - 1]
  }

  /** A run `t` that failed with `err` stops at the step that failed. Up to
      `n` it is the run of the steps that went through: apart from status
      polls it issues only their operations, and it ends with the last of
      their effects. After `n` come only the failed step's own attempts, and
      these take no effect:
      - a write given up on leaves exactly MaxAttemptNumber polls that kept
        it back;
      - a read given up on leaves exactly MaxAttemptNumber failed attempts
        at the step's register;
      - a transport error leaves nothing, since the failed transaction ends
        the run. */
  ghost predicate StoppedAt(t: seq<Txn>, n: nat, addr: bv8, steps: seq<Op>, err: Error)
  {
    var k := |Effects(t)|;
    && n <= |t|
    && EndsWithEffect(t[..n])
    && Effects(t[..n]) == Effects(t)
    && k <= |steps| && Touches(t[..n], addr, steps[..k])
    && match err
       case WriteLimit =>
         && k < |steps| && steps[k].WriteByte?
         && BusyPolls(t[n..], addr) && |t| - n == MaxAttemptNumber
       case ReadLimit =>
         && k < |steps| && steps[k].ReadByte?
         && FailedReads(t[n..], addr, steps[k].reg) && Polls(t[n..]) == MaxAttemptNumber
       case Transport(_) => n == |t| && n > 0 && Some(err) == ErrorOf(t[n - 1].reply)
       case CountingError => false
       case NoAutomaticLimiting => false
  }

  /** The run `t` issues the operations of `steps` strictly in step order:
      at every point, only the steps that have taken effect so far and the
      one in progress have been touched. No operation of a later step, not
      even a failed read that leaves no effect, comes before an earlier step
      has taken effect. */
  ghost predicate InStepOrder(t: seq<Txn>, addr: bv8, steps: seq<Op>)
  {
    forall i :: 0 <= i < |t| ==>
      var k := |Effects(t[..i])|;
      t[i].op == Poll(addr) || t[i].op in steps[..if k < |steps| then k + 1 else |steps|]
  }

  /** A run of the first `k` steps in step order, followed by a run of step
      `k` that takes effect only at its end, is in step order. */
  lemma InStepOrderNext(a: seq<Txn>, b: seq<Txn>, addr: bv8, steps: seq<Op>, k: nat)
    requires k < |steps| && |Effects(a)| == k && InStepOrder(a, addr, steps)
    requires Touches(b, addr, [steps[k]]) && EffectOnlyAtEnd(b)
    ensures InStepOrder(a + b, addr, steps)
  {
    var t := a + b;
    forall i | 0 <= i < |t|
      ensures var e := |Effects(t[..i])|;
              t[i].op == Poll(addr) || t[i].op in steps[..if e < |steps| then e + 1 else |steps|]
    {
      if i < |a| {
        assert t[..i] == a[..i] && t[i] == a[i];
      } else {
        var j := i - |a|;
        assert t[..i] == a + b[..j] && t[i] == b[j];
        EffectsAppend(a, b[..j]);
        assert steps[k] in steps[..k + 1];
      }
    }
  }

  /** A status-gated write takes effect, if at all, only at its end. */
  lemma WriteTakesEffectAtEnd(l: Lidar, reg: bv8, value: bv8, bus: seq<Reply>)
    ensures EffectOnlyAtEnd(WriteByteToRegister(l, reg, value, bus).trace)
  {
    var w := WriteByteToRegister(l, reg, value, bus);
    if w.out == Some(WriteLimit) {
      assert Effects(w.trace) == [];
    } else {
      assert |Effects(w.trace)| == 1 && Effects(w.trace)[0] == w.trace[|w.trace| - 1];
    }
    OnlyLastTakesEffect(w.trace);
  }

  /** An unpolled write is a run of its own operation alone, taking effect
      at its end. */
  lemma RawWriteTakesEffectAtEnd(l: Lidar, reg: bv8, value: bv8, bus: seq<Reply>)
    ensures var g := RawWrite(l, reg, value, bus);
            && Touches(g.trace, l.address, [WriteByte(l.address, reg, value)])
            && EffectOnlyAtEnd(g.trace)
  {
    var g := RawWrite(l, reg, value, bus);
    OnlyLastTakesEffect(g.trace);
  }

  /** A retried register read takes effect, if at all, only at its end. */
  lemma ReadTakesEffectAtEnd(l: Lidar, reg: bv8, bus: seq<Reply>)
    ensures EffectOnlyAtEnd(Read(l, reg, bus).trace)
  {
    OnlyLastTakesEffect(Read(l, reg, bus).trace);
  }

  /** A run that ends with an effect keeps doing so when it is extended. */
  lemma EndsWithEffectAppend(p: seq<Txn>, q: seq<Txn>)
    requires EndsWithEffect(q) && |q| > 0
    ensures EndsWithEffect(p + q)
  {
    EffectsAppend(p, q);
    assert (p + q)[|p + q| - 1] == q[|q| - 1];
  }

  /** The runs of a protocol's first two steps, each ending with its one
      effect, make a run of those steps ending with the second one. */
  lemma TwoStepsWent(a: seq<Txn>, b: seq<Txn>, addr: bv8, steps: seq<Op>)
    requires |steps| >= 2
    requires |Effects(a)| == 1 && EndsWithEffect(a) && Touches(a, addr, [steps[0]])
    requires |Effects(b)| == 1 && EndsWithEffect(b) && Touches(b, addr, [steps[1]])
    ensures |Effects(a + b)| == 2 && EndsWithEffect(a + b) && Touches(a + b, addr, steps[..2])
  {
    EndsWithEffectAppend(a, b);
    EffectsAppend(a, b);
    FirstStepTouches(a, addr, steps);
    TouchesNext(a, b, addr, steps, 1);
  }

  /** A status-gated write that was issued ends its run. */
  lemma WriteEndsWithEffect(l: Lidar, reg: bv8, value: bv8, bus: seq<Reply>)
    requires WriteByteToRegister(l, reg, value, bus).out != Some(WriteLimit)
    ensures var w := WriteByteToRegister(l, reg, value, bus);
            |Effects(w.trace)| == 1 && EndsWithEffect(w.trace)
  {
    var w := WriteByteToRegister(l, reg, value, bus);
    var e := Effects(w.trace);
    assert |e| == 1 && e[0] == w.trace[|w.trace| - 1];
  }

  /** A register read that delivered ends its run. */
  lemma ReadEndsWithEffect(l: Lidar, reg: bv8, bus: seq<Reply>)
    requires Read(l, reg, bus).out.err.None?
    ensures var x := Read(l, reg, bus);
            |Effects(x.trace)| == 1 && EndsWithEffect(x.trace)
  {
    var x := Read(l, reg, bus);
    var e := Effects(x.trace);
    assert |e| == 1 && e[0] == x.trace[|x.trace| - 1];
  }

  /** A status-gated write, as the step after the run `p`, given up on. */
  lemma WriteGivenUp(p: seq<Txn>, t: seq<Txn>, l: Lidar, reg: bv8, value: bv8,
                     bus: seq<Reply>, steps: seq<Op>)
    requires |Effects(p)| < |steps| && steps[|Effects(p)|] == WriteByte(l.address, reg, value)
    requires EndsWithEffect(p) && Touches(p, l.address, steps[..|Effects(p)|])
    requires var w := WriteByteToRegister(l, reg, value, bus);
             t == p + w.trace && w.out == Some(WriteLimit)
    ensures StoppedAt(t, |p|, l.address, steps, WriteLimit)
  {
    var w := WriteByteToRegister(l, reg, value, bus);
    WriteWaitsForReady(l, reg, value, bus);
    BusyPollsCount(w.trace, l.address);
    assert t[..|p|] == p && t[|p|..] == w.trace;
    EffectsAppend(p, w.trace);
  }

  /** A retried register read, as the step after the run `p`, given up on. */
  lemma ReadGivenUp(p: seq<Txn>, t: seq<Txn>, l: Lidar, reg: bv8, bus: seq<Reply>, steps: seq<Op>)
    requires |Effects(p)| < |steps| && steps[|Effects(p)|] == ReadByte(l.address, reg)
    requires EndsWithEffect(p) && Touches(p, l.address, steps[..|Effects(p)|])
    requires var x := Read(l, reg, bus);
             t == p + x.trace && x.out.err.Some?
    ensures StoppedAt(t, |p|, l.address, steps, ReadLimit)
  {
    var x := Read(l, reg, bus);
    ReadWaitsForGate(l, reg, bus);
    assert t[..|p|] == p && t[|p|..] == x.trace;
    EffectsAppend(p, x.trace);
  }

  /** A run of the steps that went through, whose last transaction failed
      on the transport and is its last effect, stops there. */
  lemma TransportFailure(t: seq<Txn>, addr: bv8, steps: seq<Op>, err: Error)
    requires EndsWithEffect(t) && |t| > 0
    requires |Effects(t)| <= |steps| && Touches(t, addr, steps[..|Effects(t)|])
    requires Some(err) == ErrorOf(t[|t| - 1].reply)
    ensures StoppedAt(t, |t|, addr, steps, err)
  {
    assert t[..|t|] == t;
  }

  /** A protocol whose first step is a status-gated write, stopped at that
      write. */
  lemma FirstWriteFails(l: Lidar, reg: bv8, value: bv8, bus: seq<Reply>, steps: seq<Op>)
      returns (n: nat)
    requires |steps| > 0 && steps[0] == WriteByte(l.address, reg, value)
    requires WriteByteToRegister(l, reg, value, bus).out.Some?
    ensures var w := WriteByteToRegister(l, reg, value, bus);
            StoppedAt(w.trace, n, l.address, steps, w.out.value)
  {
    var w := WriteByteToRegister(l, reg, value, bus);
    if w.out == Some(WriteLimit) {
      n := 0;
      assert [] + w.trace == w.trace;
      WriteGivenUp([], w.trace, l, reg, value, bus, steps);
    } else {
      n := |w.trace|;
      WriteEndsWithEffect(l, reg, value, bus);
      FirstStepTouches(w.trace, l.address, steps);
      TransportFailure(w.trace, l.address, steps, w.out.value);
    }
  }
}

=== FILE: retry.dfy ===
/**
 * The device handle and the status-gated accessors of the LIDAR-Lite v2
 * driver: GetStatus, and Read and WriteByteToRegister, which poll the status
 * register before every attempt and give up after MaxAttemptNumber attempts.
 * The one-second pause between attempts has no functional effect and is not
 * modelled.
 */
module Retry {
  import opened Wrappers
  import opened Status
  import opened Bus

  /** Maximum number of attempts of a retried read or write. */
  const MaxAttemptNumber: nat := 50

  // The device registers the driver uses.
  const ControlRegister: bv8 := 0x00             // 0x00 reset, 0x03 / 0x04 acquire
  const ModeRegister: bv8 := 0x04                // 0xa0 velocity, 0x20 / 0x21 continuous
  const VelocityRegister: bv8 := 0x09
  const DistanceHighRegister: bv8 := 0x0f
  const DistanceLowRegister: bv8 := 0x10
  const ReadingCountRegister: bv8 := 0x11        // 0xff: readings without end
  const IntervalRegister: bv8 := 0x45            // time between measurements
  const ContinuousDistanceRegister: bv8 := 0x8f  // 16-bit distance in continuous mode

  /** Device handle: the I2C bus it was opened on and the device address. */
  datatype Lidar = Lidar(busNumber: bv8, address: bv8)

  /** The errors the driver returns. */
  datatype Error =
    | Transport(cause: BusError)   // the transport's own error, passed through
    | ReadLimit                    // "Read limit occurs"
    | WriteLimit                   // "Write limit occurs"
    | CountingError                // "Error in counting detected"
    | NoAutomaticLimiting          // "Automatic limiting doesn't occurs"

  /** Go's `(value, error)` pair; `err == None` is a nil error. */
  datatype Reading<T> = Reading(value: T, err: Option<Error>)

  /** The error a transport reply reports, if any. */
  function ErrorOf(reply: Reply): Option<Error>
  {
    match reply
    case Ok(_) => None
    case Err(e) => Some(Transport(e))
  }

  /** The branches of the driver's switch on a status byte, in the order the
      driver tests them: the health bit first, then the error bit, then the
      signal-overflow bit. */
  datatype Verdict = BadHealth | ErrorDetected | LimitingOff | Nominal

  function Classify(st: bv8): Verdict
  {
    if !IsSet(st, Health) then BadHealth
    else if IsSet(st, ErrorDetection) then ErrorDetected
    else if !IsSet(st, SignalOverflow) then LimitingOff
    else Nominal
  }

  /** The branch the switch takes, stated on the set of flags the status
      byte raises: bad health whatever else is raised, then an error, then
      the absence of automatic limiting. */
  lemma ClassifyByFlags(st: bv8)
    ensures var v := Classify(st);
            var flags := Decode(st);
            && (v == BadHealth <==> Health !in flags)
            && (v == ErrorDetected <==> Health in flags && ErrorDetection in flags)
            && (v == LimitingOff <==>
                  Health in flags && ErrorDetection !in flags && SignalOverflow !in flags)
            && (v == Nominal <==>
                  Health in flags && ErrorDetection !in flags && SignalOverflow in flags)
  {
  }

  /** Whether Read's loop goes on to read the register after this status:
      it does so both with bad health and in the nominal case. */
  predicate ReadsRegister(st: bv8)
  {
    match Classify(st)
    case BadHealth => true
    case ErrorDetected => false
    case LimitingOff => false
    case Nominal => true
  }

  /** A status reply after which Read reads the register. */
  predicate ReadGate(reply: Reply)
  {
    reply.Ok? && ReadsRegister(LowByte(reply.data))
  }

  /** A status reply after which WriteByteToRegister writes. */
  predicate WriteGate(reply: Reply)
  {
    reply.Ok? && !IsSet(LowByte(reply.data), NotReady)
  }

  /** A write straight through the transport, without polling the status. */
  function RawWrite(l: Lidar, reg: bv8, value: bv8, bus: seq<Reply>): (r: Run<Option<Error>>)
    ensures Answered(bus, r)
    ensures |r.trace| == 1 && r.trace[0].op == WriteByte(l.address, reg, value)
    ensures r.out == ErrorOf(r.trace[0].reply)
    ensures Effects(r.trace) == r.trace
  {
    var w := Transact(WriteByte(l.address, reg, value), bus);
    SingleEffect(w.trace);
    Run(ErrorOf(w.out), w.trace, w.rest)
  }

  /** Read the status register once. */
  function GetStatus(l: Lidar, bus: seq<Reply>): (r: Run<Reading<bv8>>)
    ensures Answered(bus, r)
    ensures |r.trace| == 1 && r.trace[0].op == Poll(l.address)
    ensures r.out.err.None? <==> r.trace[0].reply.Ok?
    ensures r.out.err.None? ==> r.out.value == LowByte(r.trace[0].reply.data)
    ensures r.out.err.Some? ==> r.out == Reading(0, Some(Transport(r.trace[0].reply.error)))
  {
    var p := Transact(Poll(l.address), bus);
    match p.out
    case Ok(d) => Run(Reading(LowByte(d), None), p.trace, p.rest)
    case Err(e) => Run(Reading(0, Some(Transport(e))), p.trace, p.rest)
  }

  // ---------------------------------------------------------------------
  // Read

  /** `t` is a run of attempts of Read's loop none of which delivered a
      value: each is a status poll that failed or did not let the read
      through, or a poll that let it through followed by a failed read. */
  ghost predicate FailedReads(t: seq<Txn>, addr: bv8, reg: bv8)
    decreases |t|
  {
    if |t| == 0 then true
    else if t[0].op != Poll(addr) then false
    else if !ReadGate(t[0].reply) then FailedReads(t[1..], addr, reg)
    else |t| >= 2 && t[1].op == ReadByte(addr, reg) && t[1].reply.Err?
         && FailedReads(t[2..], addr, reg)
  }

  /** `t` is Read's loop delivering `v`: attempts that failed as in
      FailedReads, then a poll that lets the read through, then a register
      read that returns `v`, last. */
  ghost predicate ReadDelivered(t: seq<Txn>, addr: bv8, reg: bv8, v: bv8)
    decreases |t|
  {
    if |t| < 2 || t[0].op != Poll(addr) then false
    else if !ReadGate(t[0].reply) then ReadDelivered(t[1..], addr, reg, v)
    else if t[1].op != ReadByte(addr, reg) then false
    else if t[1].reply.Ok? then |t| == 2 && LowByte(t[1].reply.data) == v
    else ReadDelivered(t[2..], addr, reg, v)
  }

  lemma {:induction false} FailedReadsAppend(a: seq<Txn>, b: seq<Txn>, addr: bv8, reg: bv8)
    requires FailedReads(a, addr, reg) && FailedReads(b, addr, reg)
    ensures FailedReads(a + b, addr, reg)
    decreases |a|
  {
    if |a| == 0 {
      assert a + b == b;
    } else if !ReadGate(a[0].reply) {
      assert (a + b)[1..] == a[1..] + b;
      FailedReadsAppend(a[1..], b, addr, reg);
    } else {
      assert (a + b)[2..] == a[2..] + b;
      FailedReadsAppend(a[2..], b, addr, reg);
    }
  }

  /** A failed run has one status poll per attempt and no effect. */
  lemma {:induction false} FailedReadsShape(t: seq<Txn>, addr: bv8, reg: bv8)
    requires FailedReads(t, addr, reg)
    ensures Effects(t) == []
    ensures Touches(t, addr, [ReadByte(addr, reg)])
    decreases |t|
  {
    if |t| > 0 {
      if !ReadGate(t[0].reply) {
        FailedReadsShape(t[1..], addr, reg);
      } else {
        assert t[1..][1..] == t[2..];
        FailedReadsShape(t[2..], addr, reg);
      }
    }
  }

  lemma {:induction false} ReadDeliveredPrepend(a: seq<Txn>, t: seq<Txn>, addr: bv8, reg: bv8, v: bv8)
    requires FailedReads(a, addr, reg) && ReadDelivered(t, addr, reg, v)
    ensures ReadDelivered(a + t, addr, reg, v)
    decreases |a|
  {
    if |a| == 0 {
      assert a + t == t;
    } else if !ReadGate(a[0].reply) {
      assert (a + t)[1..] == a[1..] + t;
      ReadDeliveredPrepend(a[1..], t, addr, reg, v);
    } else {
      assert (a + t)[2..] == a[2..] + t;
      ReadDeliveredPrepend(a[2..], t, addr, reg, v);
    }
  }

  /** A delivering run polls once per attempt, touches nothing but the
      status and the register, and takes effect through its final register
      read only. */
  lemma {:induction false} ReadDeliveredShape(t: seq<Txn>, addr: bv8, reg: bv8, v: bv8)
    requires ReadDelivered(t, addr, reg, v)
    ensures Effects(t) == [t[|t| - 1]]
    ensures Touches(t, addr, [ReadByte(addr, reg)])
    ensures t[|t| - 1].op == ReadByte(addr, reg) && t[|t| - 1].reply.Ok?
    ensures LowByte(t[|t| - 1].reply.data) == v
    decreases |t|
  {
    if !ReadGate(t[0].reply) {
      ReadDeliveredShape(t[1..], addr, reg, v);
      ShapeAfter(t, 1, addr, reg, v);
    } else if t[1].reply.Err? {
      ReadDeliveredShape(t[2..], addr, reg, v);
      assert Effects(t[..2]) == [] by {
        assert t[..2][1..][1..] == [];
      }
      ShapeAfter(t, 2, addr, reg, v);
    } else {
      assert t[1..][1..] == [];
    }
  }

  /** Transactions without effect, put before a delivered read, keep it
      delivered. */
  lemma ShapeAfter(t: seq<Txn>, n: nat, addr: bv8, reg: bv8, v: bv8)
    requires n < |t|
    requires Effects(t[..n]) == [] && Touches(t[..n], addr, [ReadByte(addr, reg)])
    requires var u := t[n..];
             && Effects(u) == [u[|u| - 1]] && Touches(u, addr, [ReadByte(addr, reg)])
    ensures Effects(t) == [t[|t| - 1]]
    ensures Touches(t, addr, [ReadByte(addr, reg)])
  {
    assert t == t[..n] + t[n..];
    EffectsAppend(t[..n], t[n..]);
    TouchesAppend(t[..n], t[n..], addr, [ReadByte(addr, reg)]);
  }

  /** One attempt of Read's loop: a poll that lets the read through followed
      by a failed register read. */
  lemma FailedReadAttempt(poll: seq<Txn>, read: seq<Txn>, addr: bv8, reg: bv8)
    requires |poll| == 1 && poll[0].op == Poll(addr) && ReadGate(poll[0].reply)
    requires |read| == 1 && read[0].op == ReadByte(addr, reg) && read[0].reply.Err?
    ensures FailedReads(poll + read, addr, reg) && Polls(poll + read) == 1
  {
    var t := poll + read;
    assert t[2..] == [];
    assert t[1..] == read;
    assert read[1..] == [];
  }

  /** One attempt of Read's loop: a poll that keeps the read back. */
  lemma SkippedReadAttempt(poll: seq<Txn>, addr: bv8, reg: bv8)
    requires |poll| == 1 && poll[0].op == Poll(addr) && !ReadGate(poll[0].reply)
    ensures FailedReads(poll, addr, reg) && Polls(poll) == 1
  {
    assert poll[1..] == [];
  }

  /** The last attempt of Read's loop: a poll that lets the read through
      followed by a register read that succeeds. */
  lemma DeliveringReadAttempt(poll: seq<Txn>, read: seq<Txn>, addr: bv8, reg: bv8)
    requires |poll| == 1 && poll[0].op == Poll(addr) && ReadGate(poll[0].reply)
    requires |read| == 1 && read[0].op == ReadByte(addr, reg) && read[0].reply.Ok?
    ensures ReadDelivered(poll + read, addr, reg, LowByte(read[0].reply.data))
    ensures Polls(poll + read) == 1
  {
    var t := poll + read;
    assert t[1..] == read;
    assert read[1..] == [];
  }

  /** Read's loop with `left` of its attempts remaining. */
  function ReadAttempts(l: Lidar, reg: bv8, left: nat, bus: seq<Reply>): (r: Run<Reading<bv8>>)
    decreases left
    ensures Answered(bus, r)
    ensures Polls(r.trace) <= left
    ensures r.out.err.None? ==> ReadDelivered(r.trace, l.address, reg, r.out.value)
    ensures r.out.err.Some? ==>
              && r.out == Reading(0, Some(ReadLimit))
              && FailedReads(r.trace, l.address, reg)
              && Polls(r.trace) == left
  {
    if left == 0 then Run(Reading(0, Some(ReadLimit)), [], bus)
    else
      var s := GetStatus(l, bus);
      if s.out.err.None? && ReadsRegister(s.out.value) then
        var x := Transact(ReadByte(l.address, reg), s.rest);
        AnsweredThen(bus, s, x);
        var attempt := s.trace + x.trace;
        if x.out.Ok? then
          DeliveringReadAttempt(s.trace, x.trace, l.address, reg);
          Run(Reading(LowByte(x.out.data), None), attempt, x.rest)
        else
          var more := ReadAttempts(l, reg, left - 1, x.rest);
          AnsweredThen(bus, Then(s.trace, x), more);
          FailedReadAttempt(s.trace, x.trace, l.address, reg);
          PollsAppend(attempt, more.trace);
          if more.out.err.None? then
            ReadDeliveredPrepend(attempt, more.trace, l.address, reg, more.out.value);
            Then(attempt, more)
          else
            FailedReadsAppend(attempt, more.trace, l.address, reg);
            Then(attempt, more)
      else
        var more := ReadAttempts(l, reg, left - 1, s.rest);
        AnsweredThen(bus, s, more);
        PollsAppend(s.trace, more.trace);
        SkippedReadAttempt(s.trace, l.address, reg);
        if more.out.err.None? then
          ReadDeliveredPrepend(s.trace, more.trace, l.address, reg, more.out.value);
          Then(s.trace, more)
        else
          FailedReadsAppend(s.trace, more.trace, l.address, reg);
          Then(s.trace, more)
  }

  /** Read a device register, polling the status first and retrying up to
      MaxAttemptNumber times. Only the final, successful register read and
      nothing else of the loop takes effect; without one the call gives up
      with ReadLimit after exactly MaxAttemptNumber polls. */
  function Read(l: Lidar, reg: bv8, bus: seq<Reply>): (r: Run<Reading<bv8>>)
    ensures Answered(bus, r)
    ensures Polls(r.trace) <= MaxAttemptNumber
    ensures Touches(r.trace, l.address, [ReadByte(l.address, reg)])
    ensures r.out.err.None? ==>
              && |Effects(r.trace)| == 1
              && Effects(r.trace)[0].op == ReadByte(l.address, reg)
              && Effects(r.trace)[0].reply.Ok?
              && Effects(r.trace)[0] == r.trace[|r.trace| - 1]
              && r.out.value == LowByte(Effects(r.trace)[0].reply.data)
    ensures r.out.err.Some? ==>
              && r.out == Reading(0, Some(ReadLimit))
              && Polls(r.trace) == MaxAttemptNumber
              && Effects(r.trace) == []
  {
    var r := ReadAttempts(l, reg, MaxAttemptNumber, bus);
    if r.out.err.None? then
      ReadDeliveredShape(r.trace, l.address, reg, r.out.value);
      r
    else
      FailedReadsShape(r.trace, l.address, reg);
      r
  }

  /** The shape of Read's run: attempts whose poll kept the read back or
      whose read failed, then, unless it gave up, a poll that let the read
      through directly followed by the successful read, which is the last
      transaction. */
  lemma ReadWaitsForGate(l: Lidar, reg: bv8, bus: seq<Reply>)
    ensures var r := Read(l, reg, bus);
            && (r.out.err.None? ==> ReadDelivered(r.trace, l.address, reg, r.out.value))
            && (r.out.err.Some? ==> FailedReads(r.trace, l.address, reg))
  {
  }

  // ---------------------------------------------------------------------
  // WriteByteToRegister

  /** Every transaction of `t` is a status poll whose reply kept the write
      back: the poll failed or reported the device busy. */
  ghost predicate BusyPolls(t: seq<Txn>, addr: bv8)
  {
    forall i :: 0 <= i < |t| ==> t[i].op == Poll(addr) && !WriteGate(t[i].reply)
  }

  /** `t` is WriteByteToRegister issuing its one write: polls that kept it
      back, a poll that reported the device ready, then the write, last. */
  ghost predicate WroteWhenReady(t: seq<Txn>, addr: bv8, reg: bv8, value: bv8)
    decreases |t|
  {
    if |t| < 2 || t[0].op != Poll(addr) then false
    else if !WriteGate(t[0].reply) then WroteWhenReady(t[1..], addr, reg, value)
    else |t| == 2 && t[1].op == WriteByte(addr, reg, value)
  }

  /** One attempt of WriteByteToRegister's loop: a poll that keeps the
      write back. */
  lemma BusyPollPrepend(poll: seq<Txn>, t: seq<Txn>, addr: bv8)
    requires |poll| == 1 && poll[0].op == Poll(addr) && !WriteGate(poll[0].reply)
    requires BusyPolls(t, addr)
    ensures BusyPolls(poll + t, addr)
  {
    assert forall i :: 0 < i < |poll + t| ==> (poll + t)[i] == t[i - 1];
  }

  lemma WroteWhenReadyPrepend(poll: seq<Txn>, t: seq<Txn>, addr: bv8, reg: bv8, value: bv8)
    requires |poll| == 1 && poll[0].op == Poll(addr) && !WriteGate(poll[0].reply)
    requires WroteWhenReady(t, addr, reg, value)
    ensures WroteWhenReady(poll + t, addr, reg, value)
    ensures (poll + t)[|poll + t| - 1] == t[|t| - 1]
  {
    assert (poll + t)[1..] == t;
  }

  /** The last attempt of WriteByteToRegister's loop: a poll reporting the
      device ready, then the write. */
  lemma ReadyWriteAttempt(poll: seq<Txn>, write: seq<Txn>, addr: bv8, reg: bv8, value: bv8)
    requires |poll| == 1 && poll[0].op == Poll(addr) && WriteGate(poll[0].reply)
    requires |write| == 1 && write[0].op == WriteByte(addr, reg, value)
    ensures WroteWhenReady(poll + write, addr, reg, value)
    ensures (poll + write)[|poll + write| - 1] == write[0]
  {
  }

  lemma {:induction false} BusyPollsCount(t: seq<Txn>, addr: bv8)
    requires BusyPolls(t, addr)
    ensures Polls(t) == |t| && Effects(t) == []
    decreases |t|
  {
    if |t| > 0 {
      BusyPollsCount(t[1..], addr);
    }
  }

  /** A run that wrote polls once per attempt and takes effect through its
      final write only, which is its last transaction. */
  lemma {:induction false} WroteWhenReadyShape(t: seq<Txn>, addr: bv8, reg: bv8, value: bv8)
    requires WroteWhenReady(t, addr, reg, value)
    ensures Polls(t) == |t| - 1
    ensures Effects(t) == [t[|t| - 1]]
    ensures t[|t| - 1].op == WriteByte(addr, reg, value)
    ensures Touches(t, addr, [WriteByte(addr, reg, value)])
    decreases |t|
  {
    if WriteGate(t[0].reply) {
      assert t[1..][1..] == [];
    } else {
      WroteWhenReadyShape(t[1..], addr, reg, value);
      assert t == [t[0]] + t[1..];
      EffectsAppend([t[0]], t[1..]);
      TouchesAppend([t[0]], t[1..], addr, [WriteByte(addr, reg, value)]);
    }
  }

  /** WriteByteToRegister's loop with `left` of its attempts remaining. */
  function WriteAttempts(l: Lidar, reg: bv8, value: bv8, left: nat, bus: seq<Reply>): (r: Run<Option<Error>>)
    decreases left
    ensures Answered(bus, r)
    ensures r.out == Some(WriteLimit) ==> BusyPolls(r.trace, l.address) && |r.trace| == left
    ensures r.out != Some(WriteLimit) ==>
              && WroteWhenReady(r.trace, l.address, reg, value)
              && |r.trace| <= left + 1
              && r.out == ErrorOf(r.trace[|r.trace| - 1].reply)
  {
    if left == 0 then Run(Some(WriteLimit), [], bus)
    else
      var s := GetStatus(l, bus);
      if s.out.err.None? && !IsSet(s.out.value, NotReady) then
        var w := Transact(WriteByte(l.address, reg, value), s.rest);
        AnsweredThen(bus, s, w);
        assert WriteGate(s.trace[0].reply);
        ReadyWriteAttempt(s.trace, w.trace, l.address, reg, value);
        Run(ErrorOf(w.out), s.trace + w.trace, w.rest)
      else
        var more := WriteAttempts(l, reg, value, left - 1, s.rest);
        AnsweredThen(bus, s, more);
        if more.out != Some(WriteLimit) then
          WroteWhenReadyPrepend(s.trace, more.trace, l.address, reg, value);
          Then(s.trace, more)
        else
          BusyPollPrepend(s.trace, more.trace, l.address);
          Then(s.trace, more)
  }

  /** Write a byte to a device register once the status reports the device
      ready, polling up to MaxAttemptNumber times. The write is issued at most
      once, after a ready status, and its own result is returned without
      retrying; without a ready status the call gives up with WriteLimit after
      exactly MaxAttemptNumber polls. */
  function WriteByteToRegister(l: Lidar, reg: bv8, value: bv8, bus: seq<Reply>): (r: Run<Option<Error>>)
    ensures Answered(bus, r)
    ensures Polls(r.trace) <= MaxAttemptNumber
    ensures Touches(r.trace, l.address, [WriteByte(l.address, reg, value)])
    ensures r.out == Some(WriteLimit) ==>
              Polls(r.trace) == MaxAttemptNumber && Effects(r.trace) == []
    ensures r.out != Some(WriteLimit) ==>
              && |Effects(r.trace)| == 1
              && Effects(r.trace)[0].op == WriteByte(l.address, reg, value)
              && Effects(r.trace)[0] == r.trace[|r.trace| - 1]
              && r.out == ErrorOf(Effects(r.trace)[0].reply)
  {
    var r := WriteAttempts(l, reg, value, MaxAttemptNumber, bus);
    if r.out == Some(WriteLimit) then
      BusyPollsCount(r.trace, l.address);
      r
    else
      WroteWhenReadyShape(r.trace, l.address, reg, value);
      r
  }

  /** The shape of WriteByteToRegister's run: polls that kept the write back,
      and, unless it gave up, one poll reporting the device ready directly
      followed by the write, which is the last transaction. */
  lemma WriteWaitsForReady(l: Lidar, reg: bv8, value: bv8, bus: seq<Reply>)
    ensures var r := WriteByteToRegister(l, reg, value, bus);
            && (r.out == Some(WriteLimit) ==> BusyPolls(r.trace, l.address))
            && (r.out != Some(WriteLimit) ==>
                  && WroteWhenReady(r.trace, l.address, reg, value)
                  && r.out == ErrorOf(r.trace[|r.trace| - 1].reply))
  {
  }
}

=== FILE: status.dfy ===
/**
 * The LIDAR-Lite v2 status register (register 0x01): one byte holding eight
 * independent one-bit flags. The driver declares them with `1 << iota`, so
 * the first declared flag is bit 0 and the last is bit 7.
 */
module Status {

  /** The status flags, in the order the driver declares them. */
  datatype Flag =
    | NotReady         // 1 while an acquisition is in progress
    | RefOverflow      // overflow while correlating the reference acquisition
    | SignalOverflow   // overflow while correlating the signal acquisition
    | SignalNotValid   // correlation peak at or below the record threshold
    | SecondaryReturn  // secondary return above the correlation noise floor
    | Health           // 1 if the device is healthy, 0 if not
    | ErrorDetection   // process error detected, measurement invalid
    | EyeSafe          // eye-safety protection has been activated

  /** Every flag, in declaration order. */
  const Declared: seq<Flag> :=
    [NotReady, RefOverflow, SignalOverflow, SignalNotValid,
     SecondaryReturn, Health, ErrorDetection, EyeSafe]

  /** The value of `iota` at a flag's declaration: its bit position. */
  function Position(f: Flag): (p: nat)
    ensures p < |Declared| && Declared[p] == f
  {
    match f
    case NotReady => 0
    case RefOverflow => 1
    case SignalOverflow => 2
    case SignalNotValid => 3
    case SecondaryReturn => 4
    case Health => 5
    case ErrorDetection => 6
    case EyeSafe => 7
  }

  /** The mask the driver tests a flag with: `1 << iota`, written out per
      flag; MasksArePowersOfTwo proves it is `1 << Position(f)`. */
  function Mask(f: Flag): bv8
  {
    match f
    case NotReady => 1 << 0
    case RefOverflow => 1 << 1
    case SignalOverflow => 1 << 2
    case SignalNotValid => 1 << 3
    case SecondaryReturn => 1 << 4
    case Health => 1 << 5
    case ErrorDetection => 1 << 6
    case EyeSafe => 1 << 7
  }

  /** Go's `st & Flag != 0`. */
  predicate IsSet(st: bv8, f: Flag)
  {
    st & Mask(f) != 0
  }

  /** The set of flags a status byte raises. */
  function Decode(st: bv8): set<Flag>
  {
    set f | f in Declared && IsSet(st, f)
  }

  /** The mask of `f` if it is in `flags`, else no bit. */
  function BitOf(flags: set<Flag>, f: Flag): bv8
  {
    if f in flags then Mask(f) else 0
  }

  /** The status byte that raises exactly the given flags. */
  function Encode(flags: set<Flag>): bv8
  {
    BitOf(flags, NotReady) | BitOf(flags, RefOverflow) | BitOf(flags, SignalOverflow)
    | BitOf(flags, SignalNotValid) | BitOf(flags, SecondaryReturn) | BitOf(flags, Health)
    | BitOf(flags, ErrorDetection) | BitOf(flags, EyeSafe)
  }

  /** The masks are the powers of two 1, 2, ..., 128, strictly increasing in
      declaration order; in particular they are pairwise distinct. Each
      flag's mask is 1 shifted by the flag's position. */
  lemma MasksArePowersOfTwo()
    ensures forall f :: Mask(f) == 1 << Position(f)
    ensures forall i :: 0 <= i < |Declared| ==> Mask(Declared[i]) == 1 << i
    ensures forall i, j :: 0 <= i < j < |Declared| ==> Mask(Declared[i]) < Mask(Declared[j])
    ensures forall f :: Mask(f) != 0 && Mask(f) & (Mask(f) - 1) == 0
    ensures Mask(NotReady) == 1 && Mask(EyeSafe) == 128
  {
    forall i | 0 <= i < |Declared|
      ensures Mask(Declared[i]) == 1 << i
    {
      if i == 0 {} else if i == 1 {} else if i == 2 {} else if i == 3 {}
      else if i == 4 {} else if i == 5 {} else if i == 6 {} else {}
    }
  }

  /** Testing a flag reads exactly its own bit: the flag is set iff bit
      Position(f) of the status byte is 1. */
  lemma TestReadsOwnBit(st: bv8, f: Flag)
    ensures IsSet(st, f) <==> (st >> Position(f)) & 1 == 1
  {
    match f
    case NotReady => assert st >> 0 == st;
    case RefOverflow => {}
    case SignalOverflow => {}
    case SignalNotValid => {}
    case SecondaryReturn => {}
    case Health => {}
    case ErrorDetection => {}
    case EyeSafe => {}
  }

  /** No cross-flag interaction: toggling the bit of any other flag leaves
      the test of `f` unchanged. */
  lemma TestIgnoresOtherBits(st: bv8, f: Flag, g: Flag)
    requires g != f
    ensures IsSet(st ^ Mask(g), f) <==> IsSet(st, f)
  {
    assert Mask(f) & Mask(g) == 0 by {
      MasksArePowersOfTwo();
      assert Position(f) != Position(g);
    }
    assert (st ^ Mask(g)) & Mask(f) == st & Mask(f);
  }

  /** A flag's bit in the byte Encode builds from the decoded flags is the
      flag's bit of the status byte. */
  lemma BitOfDecode(st: bv8, f: Flag)
    ensures BitOf(Decode(st), f) == st & Mask(f)
  {
    assert f in Declared by {
      assert f == Declared[Position(f)];
    }
    if IsSet(st, f) {
      assert f in Decode(st);
    } else {
      assert f !in Decode(st);
    }
  }

  /** Decoding then encoding gives back the status byte. */
  lemma EncodeDecode(st: bv8)
    ensures Encode(Decode(st)) == st
  {
    BitOfDecode(st, NotReady);
    BitOfDecode(st, RefOverflow);
    BitOfDecode(st, SignalOverflow);
    BitOfDecode(st, SignalNotValid);
    BitOfDecode(st, SecondaryReturn);
    BitOfDecode(st, Health);
    BitOfDecode(st, ErrorDetection);
    BitOfDecode(st, EyeSafe);
    assert (st & 1) | (st & 2) | (st & 4) | (st & 8) | (st & 16) | (st & 32) | (st & 64) | (st & 128) == st;
  }

  /** The byte Encode builds raises a flag exactly when the flag was given. */
  lemma EncodeRaises(flags: set<Flag>, f: Flag)
    ensures IsSet(Encode(flags), f) <==> f in flags
  {
    match f
    case NotReady => {}
    case RefOverflow => {}
    case SignalOverflow => {}
    case SignalNotValid => {}
    case SecondaryReturn => {}
    case Health => {}
    case ErrorDetection => {}
    case EyeSafe => {}
  }

  /** Encoding then decoding gives back the set of flags. */
  lemma DecodeEncode(flags: set<Flag>)
    ensures Decode(Encode(flags)) == flags
  {
    forall f
      ensures f in Decode(Encode(flags)) <==> f in flags
    {
      EncodeRaises(flags, f);
      assert f == Declared[Position(f)];
    }
  }
}

=== FILE: wrappers.dfy ===
/** Small failure-carrying datatypes shared by the driver model. */
module Wrappers {

  /** Either nothing (Go's `nil`) or a value. */
  datatype Option<+T> = None | Some(value: T)
}
